=== FILE: README.md ===
# connect4js in Dafny

A model of the core of connect4js, a Connect Four engine with self-trained
neural-network players and a genetic search over network topologies. It
covers four parts:

- **The board engine**, class `Game` in components/game.js (modules `Board`,
  `BoardFacts` and `BoardLines`). The board is a column-major grid of cells:
  the number 0, the pieces 1 and -1, or the string `" "` that `reset` writes.
  A game also has the turn counter, the game-over flag and the `winner` field.
  The model keeps the engine's quirks:
  - a finished game's winner field holds `turn % 2` (0 or 1), not the piece,
    and this overwrites the draw marker 0.5;
  - four in a row is found by searching the concatenated text of the cells,
    so "-1" followed by "111" contains "1111";
  - the anti-diagonal walk-back can leave the board;
  - `move` never consults `gameOver`.
- **The move-selection strategies** of components/aiPlayers.js (modules
  `Players` and `SearchFacts`). These are the random player, the one-ply
  Monte Carlo player with UCB scores, and the three network players, which
  pick the first move of least or greatest predicted value.
- **The network engine** of components/nn.js (modules `Net` and `NetFacts`):
  `unfunn`, `activateLayer`, `predict`, `update`, `backprop` and `train`.
  Weights are reals, and the activation function `sigmoid` is a parameter
  `sig: real -> real`.
- **The topology search helpers** of main.js (modules `Evolution`,
  `EvolutionFacts`, `Ranking` and `SelfPlay`). These are `genLayer`,
  `genLayers`, the `mutate` operators and their fill loop, the merge sort
  `sortNNs`, the tournament tally, and the labelled training states built
  from a game.

Everything is a value. Every `Math.random()` result is an explicit draw `r`
with `0 <= r < 1`, and `Math.floor(r * n)` is `Common.FloorTimes`. The Monte
Carlo player's wall-clock budget becomes a sequence of rollouts, one per
loop iteration. A JavaScript `undefined` or `null` result is `None`.
Mutation of the game passed to a player is impossible by construction,
which is what the source's `copy()` calls achieve.

## Model

| member | source | states |
|---|---|---|
| Board.NewGame | components/game.js:4-16 | `width` columns, each of `height` cells all 0; turn 0, not over, winner null |
| Board.Reset | components/game.js:19-26 | every cell becomes `" "`, dimensions kept, turn 0, `gameOver` and `winner` left as they were |
| Board.Copy | components/game.js:29-38 | same cells, turn and game-over flag; the winner is the constructor's null |
| Board.IsMoveValid | components/game.js:41-44 | a column is valid exactly when it holds a 0 cell |
| Board.AvailableMoves | components/game.js:119-126 | exactly the columns holding a 0 cell, in strictly ascending order |
| Board.PlacedRow | components/game.js:65-68 | the row the line search starts from always lies on the board |
| Board.Move | components/game.js:129-153 | a column without a 0 cell changes nothing and returns undefined. Otherwise the mover's piece (1 on even turns, -1 on odd) fills that column's lowest 0 cell, no other cell changes, and dimensions are kept. Either turn goes up by one with `" "` returned, or the game ends with `gameOver`, winner `turn % 2`, turn unchanged and `turn % 2` returned; it ends exactly when the placement leaves no 0 cell or one of the four lines through the placed piece holds the mover's four-piece text |
| Board.IsGameOver | components/game.js:47-100 | the game is over exactly when no column holds a 0 cell (then the winner field becomes the draw marker 0.5) or one of the four lines through the placed piece contains the mover's four-piece text (then the winner field is left alone) |
| Board.Flatten | main.js:52-54 | the flattened board has width * height entries |
| BoardFacts.NoMovesIffNoZeros | components/game.js:49-52 | no available move exactly when no cell is 0 |
| BoardFacts.MoveZeroCount | components/game.js:137-141 | an accepted move removes exactly one 0 cell; a rejected one removes none |
| BoardFacts.MoveEndsIff | components/game.js:129-153 | an accepted move ends the game exactly when it fills the last 0 cell or one of the four lines through the placed piece holds the mover's text |
| BoardFacts.MoveContinues | components/game.js:142-152 | a move that leaves a 0 cell and puts the mover's text on no line places the piece, advances the turn and keeps the game-over flag and winner field |
| BoardFacts.LastCellEnds | components/game.js:143-148 | filling the last 0 cell always ends the game, and the winner field is `turn % 2`, not 0.5 |
| BoardFacts.MoveKeepsLive | components/game.js:143-152 | after an accepted move the game is over or still has a 0 cell |
| BoardFacts.MoveIgnoresGameOver | components/game.js:129-141 | a finished game accepts the same placement with the same result as an unfinished one |
| BoardFacts.MoveKeepsSettled | components/game.js:137-141 | a move keeps every column "pieces, then zeros" |
| BoardFacts.PlayKeepsSettled | components/game.js:137-141 | gravity invariant: any sequence of moves keeps every column "pieces, then zeros" |
| BoardFacts.NewGameSettled | components/game.js:7 | the constructor's board satisfies the gravity invariant |
| BoardFacts.NewGameMoves | components/game.js:119-126 | on a fresh board of positive height the available moves are 0, 1, …, width - 1 |
| BoardFacts.ResetHasNoMoves | components/game.js:19-26 | after `reset` no move is available and no cell is 0 |
| BoardFacts.FlattenAt | main.js:52-54 | cell (c, y) lands at index c * height + y of the flattened board |
| BoardLines.VerticalLineIsColumn | components/game.js:72-92 | the vertical line through any cell is the text of its whole column |
| BoardLines.HorizontalLineIsRow | components/game.js:72-92 | the horizontal line through any cell is the text of its whole row |
| BoardLines.AntiDiagonalLine | components/game.js:72-79 | the anti-diagonal line is empty exactly when column + row >= width |
| BoardLines.PlacedRowIsPlacement | components/game.js:65-68 | under gravity, the row derived from the first 0 cell is the row just written |
| BoardLines.MinusOneThenThreeOnes | components/game.js:92-95 | the text of -1, 1, 1, 1 contains the first player's "1111" |
| BoardLines.VerticalFourEnds | components/game.js:84-96 | four of the mover's pieces in a row in the placed column end the game with winner `turn % 2` |
| BoardLines.HorizontalFourEnds | components/game.js:84-96 | under gravity, four of the mover's pieces in a row in the placed row end the game with winner `turn % 2` |
| BoardLines.NoPatternWithFewOnes | components/game.js:95-96 | a line text with fewer than four "1" characters never contains the first player's "1111" |
| BoardLines.FirstMoveContinues | components/game.js:47-100 | on a new board at least two cells high the first move in any column continues the game with turn 1: the lone piece makes no four |
| BoardLines.ThreeOnesOnMinusOneEnds | components/game.js:92-96 | on an even turn, three 1 pieces stacked on a -1 end the game |
| Net.ActivateLayer | components/nn.js:17-25 | one output per node of the layer |
| Net.Predict | components/nn.js:33-35 | the empty network returns the input; otherwise the output has one value per node of the last layer |
| Net.Update | components/nn.js:47-54 | with both arguments taken after the reversal, every weight of node j in layer i gains 0.75 * delta[i][j] and every bias 0.5 * delta[i][j]; layer, node and weight counts are kept |
| Net.Backprop | components/nn.js:62-95 | the result has the input's layer order and shape |
| Net.Epoch | components/nn.js:106-108 | a pass over the training cases keeps the network's shape |
| Net.Train | components/nn.js:101-111 | training keeps the network's shape |
| Net.Unfunn | components/nn.js:117-135 | `layers[i]` nodes in layer i, each with `inputSize` weights (layer 0) or `layers[i - 1]` weights, and bias 0.5 |
| NetFacts.ActivateIgnoresBias | components/nn.js:17-25 | a layer's output does not depend on the stored biases, because the map index stands where the bias belongs |
| NetFacts.PredictIgnoresBias | components/nn.js:17-35 | two networks that differ only in biases predict the same output |
| NetFacts.BackpropIsForwardUpdate | components/nn.js:62-95 | reversing, walking from the output layer and reversing back equals the forward delta rule applied through `update` |
| NetFacts.BackpropOutputLayer | components/nn.js:84-91 | output node j moves by 0.75 (bias 0.5) times r_j (1 - r_j) (e_j - r_j) |
| NetFacts.BackpropHiddenLayer | components/nn.js:68-82 | every node of a hidden layer moves by the same amount, the layer above's sum of weight times delta |
| NetFacts.TrainIsPasses | components/nn.js:101-111 | `train` equals min(epochs, 1000) in-order passes, and none for a count below 1 |
| NetFacts.TrainClamps | components/nn.js:102-103 | a count below 1 returns the network unchanged; any count above 1000 trains as 1000 does |
| NetFacts.UnfunnShaped | components/nn.js:117-135 | with positive sizes the built network accepts its input size and outputs one value per last-layer node |
| Players.RandomMove | components/aiPlayers.js:8-11 | a move exists exactly when one is available, and it is an available column |
| Players.SimGame | components/aiPlayers.js:27-37 | given one draw per 0 cell, the playout always ends; a finished game is returned unchanged; from an unfinished game the winner field ends as 0 or 1, never null or 0.5 |
| Players.Ucb | components/aiPlayers.js:56-62 | the score is Infinity exactly for an arm never played; otherwise the score times the plays equals the wins plus the exploration constant |
| Players.FirstBestArm | components/aiPlayers.js:65 | the chosen arm's score is not below any other, and it is above every earlier one |
| Players.RecordUpdate | components/aiPlayers.js:80-83 | visits go up by one; wins become 1, -1 or 0: 0 exactly when old wins + result is 0, and 1 exactly when that sum is non-zero and the result equals the piece |
| Players.RecordOverwrites | components/aiPlayers.js:80-83 | the wins field is overwritten, not accumulated |
| Players.RecordQuirks | components/aiPlayers.js:80-83 | a playout won by piece 1 (winner field 0) on an arm with 0 wins records 0; a player of piece -1 never records a win |
| Players.MctsStep | components/aiPlayers.js:56-83 | an iteration returns the chosen move exactly when it ends the copied game with winner field equal to the piece (`turn % 2`, 0 or 1, against 1 or -1); otherwise the records are those of the playout of the chosen arm: only that arm's record changes, with one more visit and wins given by the record formula |
| Players.Rolled | components/aiPlayers.js:76-83 | after a playout only the chosen arm's record changes: it becomes the record formula applied to the old record and a playout result of 0 or 1, so visits go up by one |
| Players.MctsStepIntended | components/aiPlayers.js:66-83 | the corrected iteration returns the chosen move exactly when it ends the copy with the slot the piece moves on (piece 1 on slot 0, piece -1 on slot 1); otherwise the records are those of the playout |
| Players.Explore | components/aiPlayers.js:54-84 | a move returned early is an available move that ends the copied game with winner field equal to the piece, and when the first iteration's chosen move does so, that move is returned |
| Players.FinalPick | components/aiPlayers.js:87-89 | a move exists exactly when there are moves and every arm was played; it is the first move of largest wins / plays |
| Players.MctsGetMove | components/aiPlayers.js:40-90 | null on a finished game; any move named is an available column |
| Players.FirstMaxIndex | components/aiPlayers.js:215 | the first index of a largest value |
| Players.FirstMinIndex | components/aiPlayers.js:131 | the first index of a smallest value |
| Players.NNGetMove | components/aiPlayers.js:103-215 | (all three network players) a move exists exactly when one is available; its score is the smallest (largest for MaxWinNNPlayer) and strictly better than every available column to its left |
| SearchFacts.ChosenIsFirstUnplayed | components/aiPlayers.js:56-65 | while an arm is unplayed, the leftmost unplayed arm is chosen |
| SearchFacts.ExploreVisits | components/aiPlayers.js:54-84 | after n iterations without an early return, exactly the first min(n, moves) arms have been played |
| SearchFacts.MctsBudget | components/aiPlayers.js:86-89 | with at least one iteration per move a move is always named; with fewer, the only move named is one that ends the copied game with winner field equal to the piece |
| SearchFacts.MctsTakesFirstWin | components/aiPlayers.js:73-74 | if the leftmost move ends the copied game with winner field equal to the piece, it is returned |
| SearchFacts.ShortCircuitNeverOwnWin | components/aiPlayers.js:73-74 | the winner field a move leaves is the slot `turn % 2`, so `winner === piece` never holds for piece -1, nor for piece 1 on an even turn, nor for the piece being moved |
| SearchFacts.OwnWinMissed | components/aiPlayers.js:73-74 | piece 1 completing four 1s on turn 0 ends the game with winner field 0: the mover's own win, but not `=== 1` |
| SearchFacts.MinusOneNeverRecordsWin | components/aiPlayers.js:76-83 | for a player with piece -1, an iteration that records never leaves the chosen arm with wins above 0 |
| SearchFacts.StepMissesOwnWin | components/aiPlayers.js:66-83 | when the chosen move ends the copy for the piece being moved, the iteration as written plays on and the intended one returns that move |
| Evolution.GenLayer | main.js:158 | in [1, maxN - 1] when maxN >= 2 |
| Evolution.GenLayers | main.js:161-174 | fewer than maxLayers entries (none when maxLayers is 0), each a `genLayer` value on its own draw |
| Evolution.DeleteAt | main.js:210-219 | a non-empty topology loses exactly the entry at the index; an empty one stays empty |
| Evolution.ReplaceAt | main.js:221-234 | a non-empty topology keeps its length with only the indexed entry changed; an empty one becomes one entry |
| Evolution.Splice | main.js:236-246 | a proper prefix of the first parent followed by a suffix of the second; every entry comes from a parent |
| Evolution.TrimTo | main.js:248-252 | stops at exactly maxLayers entries, one draw per deletion, keeping only entries of its input |
| Evolution.FillStep | main.js:183-257 | one pass uses at least one draw and no more than it was given |
| Evolution.Fill | main.js:183-260 | the entries already present stay as the prefix; the loop stops at exactly popSize |
| Evolution.Mutate | main.js:177-261 | the survivors come back unchanged as a prefix; a population below popSize is filled to exactly popSize; a larger one is returned as it is |
| EvolutionFacts.FillStepBounded | main.js:189-256 | each operator turns bounded survivors into a bounded child |
| EvolutionFacts.MutateKeepsBounded | main.js:177-261 | every topology `mutate` returns has at most maxLayers layers of sizes in [1, maxN - 1], given survivors that do |
| EvolutionFacts.InsertPassIsWasted | main.js:192-208 | a pass in the insert branch uses four draws and adds nothing |
| Ranking.Merge | main.js:278-297 | the merge loses and duplicates nothing |
| Ranking.MergeDescending | main.js:280-291 | merging two descending halves gives a descending sequence |
| Ranking.SortNNs | main.js:264-298 | a permutation of the input (topology, wins) pairs, wins non-increasing |
| Ranking.TiesTakeRight | main.js:280-291 | on equal wins the right half's entry comes first |
| Ranking.Tally | main.js:339-344 | winner above 0: x + 1.5, o + 0.5; below 0: o + 1; 0: each + 0.5 |
| Ranking.TallyIntended | main.js:339-344 | exactly one point per game, all of it to the winner's side |
| Ranking.TallyDanglingElse | main.js:339-344 | with winner 1 the tally as written gives (1.5, 0.5), not the intended split |
| SelfPlay.Label | main.js:131-135 | a one-hot label of length 3, with slot 0 for a winner above 0, slot 1 below 0, slot 2 otherwise |
| SelfPlay.Transcript | main.js:119-128 | one recorded state per move, each of width * height numbers; the moves given stand for the loop's moves up to the one that ends the game |
| SelfPlay.TranscriptAt | main.js:119-128 | the k-th state is the flattened board after the first k + 1 moves |
| SelfPlay.TrainingSet | main.js:131-135 | each recorded state is paired with the label of the final winner |
| SelfPlay.EndedGameLabel | main.js:131-135 | a win by piece 1 is labelled as a draw, a win by piece -1 as a win of piece 1 |
| SelfPlay.EndedGameTally | main.js:391-396 | in the tally, a win by piece 1 counts as a draw, and a win by piece -1 gives the piece-1 side 1.5 points |
| SelfPlay.StandardTrainingFits | main.js:18 | `unfunn(42, [25, 3])` accepts every training set recorded on the 7 by 6 board |

## Left out

- Console and file output: `printBoard`, `console.log`, `fs.readFileSync` and `fs.writeFileSync`. They have no effect on the modelled state.
- `sigmoid` and `Math.exp`. The activation is the parameter `sig`, and weights are exact reals, so float rounding, Infinity and NaN inside the network are not modelled.
- Float rounding in the Monte Carlo scores. `e[0] / e[1] + this.constant / e[1]` and the final ratios `e[0] / e[1]` are exact reals here, so Players.Ucb is exactly (wins + constant) / plays, and where the source's two rounded quotients tie or not differently, its first-maximum pick can differ.
- The wall clock of `MCTSPlayer`. One rollout in the sequence stands for one loop iteration.
- `Math.random`. Every draw is a parameter.
- The asynchronous drivers: the game loops of `trainNN` and `developNN`, the generation loop of `geneticNN`, `bestNN` and `main`. These are promise plumbing around whole games. Their per-game pieces (transcript, labels, tally) are modelled.
- The top-level game.js draft and components/aiPlayer.js stub. They are not part of this model.
- Moves on a column index outside the board. The source throws a TypeError there, so the model requires `0 <= column < width` and a rectangular board of at least one column.
- Players.MctsGetMove: requires a game that is over or still has a 0 cell. On a game that is not over but full of `" "` cells, the source throws on `move(undefined)` once the timed loop runs an iteration, and returns `moves[-1]`, which is `undefined`, when it runs none.
- Net.Backprop: sums an empty layer or an empty weight list to 0. The source's `reduce` throws there.
- Net.Predict: requires every node to have exactly one weight per value its layer receives. In the source a node with fewer weights gives the partial dot product over its own weights, a node with more weights gives NaN, and a node with no weights makes `reduce` throw.
- Net.ActivateLayer: states only the output length. The bias quirk is stated by NetFacts.ActivateIgnoresBias.
- Net.Unfunn: states the shape and biases, not the weight values, which are the draws themselves.
- Players.SimGame: states that the playout ends with winner 0 or 1, not which one.
- Players.NNGetMove: requires a network that accepts the flattened board and returns at least two values. Otherwise `p[1]` is undefined in the source.
- Evolution.FillStep: states only how many draws one pass uses. The children it adds are described by the operator contracts and EvolutionFacts.FillStepBounded.
- Evolution.Mutate: requires, whenever the loop runs, at least one entry and `survivors` between 1 and the number of entries (as FillStep and Fill do). With `survivors` 0 the caller's slice leaves no entries, so any pass that picks a survivor reads `substructures[0]` of an empty array and throws. With more survivors than entries the drawn index can fall past the end the same way. Passes that only draw a fresh topology would not throw there.
- Evolution.Mutate: returns `None` when the finite draw sequence runs out before the population is full. The source keeps drawing.
- Evolution.GenLayers: takes `maxLayers` as a natural number. For a negative count the source's loop never stops.
- Ranking.SortNNs: sorts one sequence of (topology, wins) entries rather than two parallel arrays. Arrays of unequal length are not modelled.

## Findings

| source | as written | input that shows it | evidently intended | confidence | as-written member | corrected member |
|---|---|---|---|---|---|---|
| main.js:339-344 | the `else` pairs with the second `if`, so a winner above 0 adds 1 to x and then another 0.5 to both sides | winner 1 gives x 1.5 and o 0.5 | one point per game, to the winner's side, or half a point each | high (not executed) | Ranking.Tally, shown by Ranking.TallyDanglingElse | Ranking.TallyIntended |
| components/aiPlayers.js:73-74 | `copiedGame.winner === this.piece` compares the winner field, which holds the mover's slot `turn % 2` (0 or 1), with the piece (1 or -1), so the early return never fires for the player who is to move | one column holding 1, 1, 1 and a 0, turn 0, piece 1: column 0 makes four 1s and ends the game with winner field 0, and the search plays on | return at once a move that wins the copied game for the player to move | high (not executed) | Players.MctsStep, shown by SearchFacts.ShortCircuitNeverOwnWin and SearchFacts.OwnWinMissed | Players.MctsStepIntended, with SearchFacts.StepMissesOwnWin |

=== FILE: board.dfy ===
/** The board engine of components/game.js (class `Game`): a column-major grid of
    cells, the turn counter, the game-over flag and the winner field, as
    immutable values. `move` returns the next game together with what the
    source's `move` returns. */
module Board {
  import opened Common

  /** A cell as the source stores it: the number 0 (empty), the pieces 1 and
      -1, or the string " " that `reset` writes. */
  datatype Cell = Zero | P1 | P2 | Blank

  /** The text `toString()` gives for a cell; win detection concatenates it. */
  function Tok(c: Cell): string {
    match c
    case Zero => "0"
    case P1 => "1"
    case P2 => "-1"
    case Blank => " "
  }

  /** The number a cell contributes when multiplied by a weight (" " coerces to 0). */
  function Value(c: Cell): real {
    match c
    case Zero => 0.0
    case P1 => 1.0
    case P2 => -1.0
    case Blank => 0.0
  }

  /** The `winner` field: `null`, the draw marker 0.5, or `turn % 2`. */
  datatype Winner = Null | Draw | Slot(index: nat)

  /** The winner as a number in `+`, `>` and `<` (null behaves as 0 there). */
  function WinnerValue(w: Winner): real {
    match w
    case Null => 0.0
    case Draw => 0.5
    case Slot(i) => i as real
  }

  datatype Game = Game(board: seq<seq<Cell>>, turn: nat, gameOver: bool, winner: Winner)

  /** What `move` returns: `undefined` for a rejected column, `" "` when play
      continues, `turn % 2` when the game ends. */
  datatype MoveReturn = Undefined | Continue | Ended(slot: nat)

  datatype Played = Played(game: Game, ret: MoveReturn)

  /** Result of `_isGameOver`: whether the game ended, and the winner field it leaves. */
  datatype Verdict = Verdict(over: bool, winner: Winner)

  const StandardWidth: nat := 7
  const StandardHeight: nat := 6

  /** `players[turn % 2]` with `players = [1, -1]`. */
  function Piece(turn: nat): Cell {
    if turn % 2 == 0 then P1 else P2
  }

  /** A board with at least one column, all columns of the first one's height. */
  predicate Rect(b: seq<seq<Cell>>) {
    |b| >= 1 && forall c | 0 <= c < |b| :: |b[c]| == |b[0]|
  }

  function Height(b: seq<seq<Cell>>): nat
    requires |b| >= 1
  {
    |b[0]|
  }

  /** The constructor `new Game(width, height)`. */
  function NewGame(width: nat, height: nat): (g: Game)
    ensures |g.board| == width && g.turn == 0 && !g.gameOver && g.winner == Null
    ensures width >= 1 ==> Rect(g.board) && Height(g.board) == height
    ensures forall c, r | 0 <= c < width && 0 <= r < |g.board[c]| :: g.board[c][r] == Zero
  {
    Game(seq(width, _ => seq(height, _ => Zero)), 0, false, Null)
  }

  /** `reset`: every cell becomes " " and the turn counter 0; `gameOver` and
      `winner` are left as they were. */
  function Reset(g: Game): (r: Game)
    requires Rect(g.board)
    ensures Rect(r.board) && |r.board| == |g.board| && Height(r.board) == Height(g.board)
    ensures forall c, y | 0 <= c < |r.board| && 0 <= y < |r.board[c]| :: r.board[c][y] == Blank
    ensures r.turn == 0 && r.gameOver == g.gameOver && r.winner == g.winner
  {
    Game(seq(|g.board|, _ => seq(|g.board[0]|, _ => Blank)), 0, g.gameOver, g.winner)
  }

  /** `copy`: a fresh `Game` carrying the cells, turn and game-over flag; its
      winner is the constructor's `null`. Cells are values, so the copy
      shares nothing with the original. */
  function Copy(g: Game): (r: Game)
    ensures r.board == g.board && r.turn == g.turn && r.gameOver == g.gameOver
    ensures r.winner == Null
  {
    Game(g.board, g.turn, g.gameOver, Null)
  }

  /** `Array.prototype.indexOf`: the first index holding `v`, or -1. */
  function IndexOf(s: seq<Cell>, v: Cell): (i: int)
    ensures -1 <= i < |s|
    ensures i == -1 <==> v !in s
    ensures 0 <= i ==> s[i] == v && v !in s[..i]
  {
    if |s| == 0 then -1
    else if s[0] == v then 0
    else
      var k := IndexOf(s[1..], v);
      if k == -1 then -1
      else
        assert s[..k + 1] == [s[0]] + s[1..][..k];
        k + 1
  }

  /** `_isMoveValid(column)`: the column still holds a 0 cell. */
  function IsMoveValid(g: Game, column: int): (ok: bool)
    requires 0 <= column < |g.board|
    ensures ok <==> Zero in g.board[column]
  {
    IndexOf(g.board[column], Zero) >= 0
  }

  /** The loop of `availableMoves` from column `i` on. */
  function MovesFrom(g: Game, i: nat): (ms: seq<nat>)
    requires i <= |g.board|
    ensures forall k :: k in ms <==> i <= k < |g.board| && Zero in g.board[k]
    ensures forall p, q | 0 <= p < q < |ms| :: ms[p] < ms[q]
    decreases |g.board| - i
  {
    if i == |g.board| then []
    else
      var rest := MovesFrom(g, i + 1);
      assert forall q | 0 <= q < |rest| :: rest[q] > i by {
        forall q | 0 <= q < |rest| ensures rest[q] > i { assert rest[q] in rest; }
      }
      if IsMoveValid(g, i) then [i] + rest else rest
  }

  /** `availableMoves`: in ascending order, the columns that hold a 0 cell. */
  function AvailableMoves(g: Game): (ms: seq<nat>)
    ensures forall k :: k in ms <==> 0 <= k < |g.board| && Zero in g.board[k]
    ensures forall p, q | 0 <= p < q < |ms| :: ms[p] < ms[q]
    ensures forall p | 0 <= p < |ms| :: ms[p] < |g.board| && Zero in g.board[ms[p]]
  {
    var ms := MovesFrom(g, 0);
    assert forall p | 0 <= p < |ms| :: ms[p] in ms;
    ms
  }

  /** The string `players[turn % 2].toString().repeat(4)`. */
  function Pattern(turn: nat): string {
    var t := Tok(Piece(turn));
    t + t + t + t
  }

  /** The piece of text `p` occurs in `s` starting at position `i`. */
  predicate OccursAt(s: string, p: string, i: int) {
    0 <= i <= |s| && p <= s[i..]
  }

  /** `String.prototype.includes`. */
  predicate Includes(s: string, p: string) {
    exists i | 0 <= i <= |s| :: OccursAt(s, p, i)
  }

  /** The four entries of `dirs` in `_isGameOver`, in order:
      [1, 0], [0, 1], [1, 1], [-1, 1]. */
  datatype Dir = Horizontal | Vertical | Diagonal | AntiDiagonal

  function DX(d: Dir): int {
    match d
    case Horizontal => 1
    case Vertical => 0
    case Diagonal => 1
    case AntiDiagonal => -1
  }

  function DY(d: Dir): int {
    if d == Horizontal then 0 else 1
  }

  datatype Pos = Pos(x: int, y: int)

  /** The first loop of a direction: step backwards while the NEXT column and
      row are not negative and the CURRENT column and row are below the board
      size. Along [-1, 1] this can stop at column == width. */
  function WalkBack(b: seq<seq<Cell>>, x: int, y: int, d: Dir): (p: Pos)
    requires Rect(b) && 0 <= x && 0 <= y
    decreases if d == Horizontal then x else y
  {
    if x - DX(d) >= 0 && y - DY(d) >= 0 && x < |b| && y < Height(b)
    then WalkBack(b, x - DX(d), y - DY(d), d)
    else Pos(x, y)
  }

  predicate InBoard(b: seq<seq<Cell>>, x: int, y: int)
    requires Rect(b)
  {
    0 <= x < |b| && 0 <= y < Height(b)
  }

  /** The second loop of a direction: the cells' text from (x, y) forwards
      while inside the board. */
  function Scan(b: seq<seq<Cell>>, x: int, y: int, d: Dir): string
    requires Rect(b)
    decreases if d == Horizontal then |b| - x else Height(b) - y
  {
    if InBoard(b, x, y) then Tok(b[x][y]) + Scan(b, x + DX(d), y + DY(d), d)
    else ""
  }

  /** The line `_isGameOver` builds for one direction through (x, y). */
  function Line(b: seq<seq<Cell>>, x: int, y: int, d: Dir): string
    requires Rect(b) && 0 <= x && 0 <= y
  {
    var p := WalkBack(b, x, y, d);
    Scan(b, p.x, p.y, d)
  }

  /** The row `_isGameOver` takes for the piece just placed: one below the
      column's first 0, or the top row when the column has no 0 left. */
  function PlacedRow(b: seq<seq<Cell>>, column: int): (y: int)
    requires Rect(b) && 0 <= column < |b| && Height(b) >= 1
    ensures 0 <= y < Height(b)
  {
    var i := IndexOf(b[column], Zero) - 1;
    if i < 0 then Height(b) - 1 else i
  }

  /** Some direction's line contains the mover's text four times over. */
  predicate LineHit(b: seq<seq<Cell>>, turn: nat, column: int)
    requires Rect(b) && 0 <= column < |b| && Height(b) >= 1
  {
    var y := PlacedRow(b, column);
    var pat := Pattern(turn);
    Includes(Line(b, column, y, Horizontal), pat)
    || Includes(Line(b, column, y, Vertical), pat)
    || Includes(Line(b, column, y, Diagonal), pat)
    || Includes(Line(b, column, y, AntiDiagonal), pat)
  }

  /** No column holds a 0 cell. */
  predicate Full(b: seq<seq<Cell>>) {
    forall c | 0 <= c < |b| :: Zero !in b[c]
  }

  /** `_isGameOver(column)` on the game just after the placement: a board with
      no available move ends the game and writes the draw marker 0.5;
      otherwise the four lines are searched for the mover's text, and the
      winner field is left alone. */
  function IsGameOver(g: Game, column: int): (v: Verdict)
    requires Rect(g.board) && 0 <= column < |g.board| && Height(g.board) >= 1
    ensures v.over <==> Full(g.board) || LineHit(g.board, g.turn, column)
    ensures Full(g.board) ==> v.winner == Draw
    ensures !Full(g.board) ==> v.winner == g.winner
  {
    var ms := AvailableMoves(g);
    assert |ms| > 0 ==> ms[0] in ms;
    if |ms| == 0 then Verdict(true, Draw)
    else Verdict(LineHit(g.board, g.turn, column), g.winner)
  }

  /** The lowest 0 cell of column `c` receives `players[turn % 2]`. */
  function Place(g: Game, column: int): (b: seq<seq<Cell>>)
    requires 0 <= column < |g.board| && Zero in g.board[column]
    ensures |b| == |g.board| && forall c | 0 <= c < |b| :: |b[c]| == |g.board[c]|
    ensures Rect(g.board) ==> Rect(b) && Height(b) == Height(g.board) && Height(b) >= 1
  {
    var col := g.board[column];
    g.board[column := col[IndexOf(col, Zero) := Piece(g.turn)]]
  }

  /** `move(column)`. A column without a 0 cell changes nothing and returns
      `undefined`. Otherwise the mover's piece fills the column's lowest 0
      cell, whether or not the game is already over. If `_isGameOver` then
      holds, `gameOver` becomes true, `winner` becomes `turn % 2` (replacing
      a 0.5 draw marker) and `turn % 2` is returned with `turn` unchanged;
      otherwise `turn` goes up by one and `" "` is returned. */
  function Move(g: Game, column: int): (r: Played)
    requires Rect(g.board) && 0 <= column < |g.board|
    ensures Rect(r.game.board) && |r.game.board| == |g.board| && Height(r.game.board) == Height(g.board)
    ensures !(Zero in g.board[column]) ==> r == Played(g, Undefined)
    ensures Zero in g.board[column] ==>
      && (forall x | 0 <= x < |g.board| && x != column :: r.game.board[x] == g.board[x])
      && r.game.board[column] == g.board[column][IndexOf(g.board[column], Zero) := Piece(g.turn)]
    ensures Zero in g.board[column] ==>
      || (r.ret == Continue && r.game.turn == g.turn + 1 && r.game.gameOver == g.gameOver && r.game.winner == g.winner)
      || (r.ret == Ended(g.turn % 2) && r.game.turn == g.turn && r.game.gameOver && r.game.winner == Slot(g.turn % 2))
    ensures Zero in g.board[column] ==>
      (r.ret.Ended? <==> Full(Place(g, column)) || LineHit(Place(g, column), g.turn, column))
  {
    if !IsMoveValid(g, column) then Played(g, Undefined)
    else
      var placed := g.(board := Place(g, column));
      var v := IsGameOver(placed, column);
      if v.over then Played(placed.(gameOver := true, winner := Slot(g.turn % 2)), Ended(g.turn % 2))
      else Played(placed.(turn := g.turn + 1, winner := v.winner), Continue)
  }

  /** The moves of `cols` made one after another. */
  function Play(g: Game, cols: seq<nat>): (r: Game)
    requires Rect(g.board)
    requires forall k | 0 <= k < |cols| :: cols[k] < |g.board|
    ensures Rect(r.board) && |r.board| == |g.board| && Height(r.board) == Height(g.board)
    decreases |cols|
  {
    if |cols| == 0 then g else Play(Move(g, cols[0]).game, cols[1..])
  }

  /** The number of 0 cells on the board. */
  function ZeroCount(b: seq<seq<Cell>>): nat {
    if |b| == 0 then 0 else ZeroCount(b[..|b| - 1]) + multiset(b[|b| - 1])[Zero]
  }

  /** The board flattened column by column into the network's input, as
      `board.forEach((col) => col.forEach((e) => input.push(e)))` does. */
  function Flatten(b: seq<seq<Cell>>): (v: seq<real>)
    requires Rect(b)
    ensures |v| == |b| * Height(b)
    decreases |b|
  {
    var col := seq(|b[0]|, y requires 0 <= y < |b[0]| => Value(b[0][y]));
    if |b| == 1 then col
    else
      var rest := Flatten(b[1..]);
      assert |b| * Height(b) == Height(b) + (|b| - 1) * Height(b);
      col + rest
  }
}

=== FILE: board_facts.dfy ===
/** Properties of the board engine across moves: the count of 0 cells, the
    gravity invariant ("pieces, then zeros" in every column), the
    available moves of fresh and reset boards, and the flattened input. */
module BoardFacts {
  import opened Common
  import opened Board

  /** A column as gravity leaves it: no " " cell, and nothing but 0 above a 0. */
  predicate Settled(col: seq<Cell>) {
    && (forall i | 0 <= i < |col| :: col[i] != Blank)
    && (forall i, j | 0 <= i < j < |col| && col[i] == Zero :: col[j] == Zero)
  }

  predicate AllSettled(b: seq<seq<Cell>>) {
    forall c | 0 <= c < |b| :: Settled(b[c])
  }

  /** The game can still be played on: it is over, or some cell is 0. */
  predicate Live(g: Game) {
    g.gameOver || ZeroCount(g.board) > 0
  }

  lemma {:induction false} ZeroCountUpdate(b: seq<seq<Cell>>, c: int, col: seq<Cell>)
    requires 0 <= c < |b|
    ensures ZeroCount(b[c := col]) + multiset(b[c])[Zero] == ZeroCount(b) + multiset(col)[Zero]
    decreases |b|
  {
    var n := |b| - 1;
    var b' := b[c := col];
    assert b'[..n] == if c == n then b[..n] else b[..n][c := col];
    if c < n {
      ZeroCountUpdate(b[..n], c, col);
    }
  }

  /** There is a 0 cell exactly when the count of 0 cells is positive. */
  lemma {:induction false} ZeroCountPositive(b: seq<seq<Cell>>)
    ensures ZeroCount(b) > 0 <==> exists c | 0 <= c < |b| :: Zero in b[c]
    decreases |b|
  {
    if |b| > 0 {
      var n := |b| - 1;
      ZeroCountPositive(b[..n]);
      if exists c | 0 <= c < |b| :: Zero in b[c] {
        var c :| 0 <= c < |b| && Zero in b[c];
        if c < n {
          assert Zero in b[..n][c];
        }
      }
      if exists c | 0 <= c < n :: Zero in b[..n][c] {
        var c :| 0 <= c < n && Zero in b[..n][c];
        assert Zero in b[c];
      }
    }
  }

  /** `availableMoves` is empty exactly when no cell is 0. */
  lemma NoMovesIffNoZeros(g: Game)
    ensures |AvailableMoves(g)| == 0 <==> ZeroCount(g.board) == 0
  {
    ZeroCountPositive(g.board);
    var ms := AvailableMoves(g);
    if |ms| > 0 {
      assert ms[0] in ms;
    }
  }

  /** Each accepted move fills exactly one 0 cell; a rejected one fills none. */
  lemma MoveZeroCount(g: Game, column: int)
    requires Rect(g.board) && 0 <= column < |g.board|
    ensures Zero in g.board[column] ==> ZeroCount(Move(g, column).game.board) == ZeroCount(g.board) - 1
    ensures !(Zero in g.board[column]) ==> ZeroCount(Move(g, column).game.board) == ZeroCount(g.board)
  {
    if Zero in g.board[column] {
      var col := g.board[column];
      var col' := col[IndexOf(col, Zero) := Piece(g.turn)];
      assert Move(g, column).game.board == g.board[column := col'];
      ZeroCountUpdate(g.board, column, col');
      assert multiset(col')[Zero] == multiset(col)[Zero] - 1;
    }
  }

  /** A move that fills the last 0 cell always ends the game, and the winner
      field records the mover's `turn % 2` rather than a draw. */
  lemma LastCellEnds(g: Game, column: int)
    requires Rect(g.board) && 0 <= column < |g.board|
    requires Zero in g.board[column] && ZeroCount(g.board) == 1
    ensures Move(g, column).ret == Ended(g.turn % 2)
    ensures Move(g, column).game.gameOver && Move(g, column).game.winner == Slot(g.turn % 2)
  {
    MoveZeroCount(g, column);
    var placed := g.(board := Place(g, column));
    assert placed.board == Move(g, column).game.board;
    NoMovesIffNoZeros(placed);
  }

  /** After an accepted move the game is over or still has a 0 cell, so a
      random playout can always continue. */
  lemma MoveKeepsLive(g: Game, column: int)
    requires Rect(g.board) && 0 <= column < |g.board| && Zero in g.board[column]
    ensures Live(Move(g, column).game)
  {
    MoveZeroCount(g, column);
    var placed := g.(board := Place(g, column));
    NoMovesIffNoZeros(placed);
  }

  /** An accepted move ends the game exactly when it fills the last 0 cell
      or one of the four lines through the placed piece holds the mover's
      four-piece text. */
  lemma MoveEndsIff(g: Game, column: int)
    requires Rect(g.board) && 0 <= column < |g.board| && Zero in g.board[column]
    ensures Move(g, column).ret.Ended? <==> ZeroCount(g.board) == 1 || LineHit(Place(g, column), g.turn, column)
  {
    MoveZeroCount(g, column);
    ZeroCountPositive(Place(g, column));
  }

  /** A move that leaves a 0 cell and puts the mover's text on none of the
      four lines continues the game: the piece is placed, the turn advances,
      and the game-over flag and winner field are kept. */
  lemma MoveContinues(g: Game, column: int)
    requires Rect(g.board) && 0 <= column < |g.board| && Zero in g.board[column]
    requires ZeroCount(g.board) >= 2 && !LineHit(Place(g, column), g.turn, column)
    ensures Move(g, column) == Played(Game(Place(g, column), g.turn + 1, g.gameOver, g.winner), Continue)
  {
    MoveEndsIff(g, column);
  }

  /** The available moves depend on the cells only. */
  lemma {:induction false} MovesFromCellsOnly(g: Game, h: Game, i: nat)
    requires g.board == h.board && i <= |g.board|
    ensures MovesFrom(g, i) == MovesFrom(h, i)
    decreases |g.board| - i
  {
    if i < |g.board| {
      MovesFromCellsOnly(g, h, i + 1);
    }
  }

  /** `move` never consults `gameOver`: a finished game accepts the same
      placements, with the same result, as an unfinished one. */
  lemma MoveIgnoresGameOver(g: Game, column: int)
    requires Rect(g.board) && 0 <= column < |g.board|
    ensures Move(g, column).game.board == Move(g.(gameOver := false), column).game.board
    ensures Move(g, column).ret == Move(g.(gameOver := false), column).ret
  {
    var h := g.(gameOver := false);
    if Zero in g.board[column] {
      var p := g.(board := Place(g, column));
      var q := h.(board := Place(h, column));
      MovesFromCellsOnly(p, q, 0);
    }
  }

  lemma PlacedKeepsSettled(col: seq<Cell>, v: Cell)
    requires Settled(col) && Zero in col && v != Blank
    ensures Settled(col[IndexOf(col, Zero) := v])
  {
    var k := IndexOf(col, Zero);
    var col' := col[k := v];
    forall i, j | 0 <= i < j < |col'| && col'[i] == Zero
      ensures col'[j] == Zero
    {
    }
  }

  /** Each move keeps every column "pieces, then zeros". */
  lemma MoveKeepsSettled(g: Game, column: int)
    requires Rect(g.board) && 0 <= column < |g.board| && AllSettled(g.board)
    ensures AllSettled(Move(g, column).game.board)
  {
    if Zero in g.board[column] {
      PlacedKeepsSettled(g.board[column], Piece(g.turn));
    }
  }

  /** Gravity invariant: from the constructor's board, every column stays
      "pieces, then zeros" whatever moves are made. */
  lemma {:induction false} PlayKeepsSettled(g: Game, cols: seq<nat>)
    requires Rect(g.board) && AllSettled(g.board)
    requires forall k | 0 <= k < |cols| :: cols[k] < |g.board|
    ensures AllSettled(Play(g, cols).board)
    decreases |cols|
  {
    if |cols| > 0 {
      MoveKeepsSettled(g, cols[0]);
      PlayKeepsSettled(Move(g, cols[0]).game, cols[1..]);
    }
  }

  lemma NewGameSettled(width: nat, height: nat)
    ensures AllSettled(NewGame(width, height).board)
  {
  }

  /** An open column heads the list of moves from it on. */
  lemma OpenColumnListed(g: Game, i: nat)
    requires i < |g.board| && Zero in g.board[i]
    ensures MovesFrom(g, i) == [i] + MovesFrom(g, i + 1)
  {
  }

  /** The column numbers i, i + 1, ..., n - 1. */
  function Columns(i: nat, n: nat): (cs: seq<nat>)
    ensures |cs| == if i <= n then n - i else 0
    ensures forall k | 0 <= k < |cs| :: cs[k] == i + k
    decreases n - i
  {
    if i >= n then [] else [i] + Columns(i + 1, n)
  }

  /** On a board whose every column is open, the moves from column i on are
      all the remaining columns, in order. */
  lemma {:induction false} FreshMovesFrom(g: Game, i: nat)
    requires i <= |g.board|
    requires forall c | 0 <= c < |g.board| :: Zero in g.board[c]
    ensures MovesFrom(g, i) == Columns(i, |g.board|)
    decreases |g.board| - i
  {
    if i < |g.board| {
      FreshMovesFrom(g, i + 1);
      OpenColumnListed(g, i);
    }
  }

  lemma NewGameMoves(width: nat, height: nat)
    requires height >= 1
    ensures |AvailableMoves(NewGame(width, height))| == width
    ensures forall k | 0 <= k < width :: AvailableMoves(NewGame(width, height))[k] == k
  {
    var g := NewGame(width, height);
    forall c | 0 <= c < width ensures Zero in g.board[c] {
      assert g.board[c][0] == Zero;
    }
    FreshMovesFrom(g, 0);
  }

  /** `reset` writes " " rather than 0, so afterwards no column is available. */
  lemma ResetHasNoMoves(g: Game)
    requires Rect(g.board)
    ensures AvailableMoves(Reset(g)) == []
    ensures ZeroCount(Reset(g).board) == 0
  {
    var r := Reset(g);
    ZeroCountPositive(r.board);
    NoMovesIffNoZeros(r);
  }

  /** Where cell (c, y) sits among `w` columns of height `h`. */
  lemma ColumnOffset(w: int, h: int, c: int, y: int)
    requires 0 <= c < w && 0 <= y < h
    ensures 0 <= c * h + y < w * h
    ensures c > 0 ==> c * h + y == h + ((c - 1) * h + y)
  {
    var k := w - c - 1;
    assert k * h >= 0 && c * h >= 0;
    assert w * h == (c + 1) * h + k * h;
    assert (c + 1) * h == c * h + h;
    if c > 0 {
      assert c * h == (c - 1) * h + h;
    }
  }

  /** Flattening is column-major: cell (c, y) lands at index c * height + y. */
  lemma {:induction false} FlattenAt(b: seq<seq<Cell>>, c: int, y: int)
    requires Rect(b) && 0 <= c < |b| && 0 <= y < Height(b)
    ensures c * Height(b) + y < |Flatten(b)|
    ensures Flatten(b)[c * Height(b) + y] == Value(b[c][y])
    decreases c
  {
    var h := Height(b);
    ColumnOffset(|b|, h, c, y);
    var col := seq(|b[0]|, k requires 0 <= k < |b[0]| => Value(b[0][k]));
    if c == 0 {
      assert Flatten(b)[y] == col[y];
    } else {
      var rest := b[1..];
      assert Rect(rest) && Height(rest) == h && rest[c - 1] == b[c];
      FlattenAt(rest, c - 1, y);
      assert Flatten(b) == col + Flatten(rest);
    }
  }
}

=== FILE: board_lines.dfy ===
/** What the string-based win detection of `_isGameOver` finds: the vertical
    and horizontal lines through the placed piece are whole columns and rows,
    the anti-diagonal is only built when column + row < width, and because
    the search is on text, "-1" followed by "111" already contains "1111". */
module BoardLines {
  import opened Common
  import opened Board
  import opened BoardFacts

  /** The concatenated `toString()` of a run of cells. */
  function Text(s: seq<Cell>): string {
    if |s| == 0 then "" else Tok(s[0]) + Text(s[1..])
  }

  /** Row `y` of the board, from column 0 to the last. */
  function Row(b: seq<seq<Cell>>, y: int): seq<Cell>
    requires Rect(b) && 0 <= y < Height(b)
  {
    seq(|b|, x requires 0 <= x < |b| => b[x][y])
  }

  /** The text of a run is the text of its first `j` cells followed by the
      text of the rest. */
  lemma {:induction false} TextSlices(s: seq<Cell>, j: int)
    requires 0 <= j <= |s|
    ensures Text(s) == Text(s[..j]) + Text(s[j..])
    decreases j
  {
    if j > 0 {
      TextSlices(s[1..], j - 1);
      assert s[1..][..j - 1] == s[..j][1..];
      assert s[1..][j - 1..] == s[j..];
    } else {
      assert s[..0] == [] && s[0..] == s;
    }
  }

  /** Text found inside a piece of text is found once more text surrounds it. */
  lemma IncludesSurrounded(a: string, m: string, c: string, p: string)
    requires Includes(m, p)
    ensures Includes(a + m + c, p)
  {
    var k :| 0 <= k <= |m| && OccursAt(m, p, k);
    var whole := a + m + c;
    assert whole[|a| + k..] == m[k..] + c;
    assert p <= m[k..];
    assert OccursAt(whole, p, |a| + k);
  }

  /** The text of a run is the text of its three consecutive stretches. */
  lemma TextSplit(s: seq<Cell>, i: int, j: int)
    requires 0 <= i <= j <= |s|
    ensures Text(s) == Text(s[..i]) + Text(s[i..j]) + Text(s[j..])
  {
    TextSlices(s, j);
    TextSlices(s[..j], i);
    assert s[..j][..i] == s[..i] && s[..j][i..] == s[i..j];
  }

  /** Text found in a stretch of cells is found in the whole run's text. */
  lemma IncludesWithin(s: seq<Cell>, i: int, j: int, p: string)
    requires 0 <= i <= j <= |s|
    requires Includes(Text(s[i..j]), p)
    ensures Includes(Text(s), p)
  {
    TextSplit(s, i, j);
    IncludesSurrounded(Text(s[..i]), Text(s[i..j]), Text(s[j..]), p);
  }

  /** The text of four equal cells. */
  lemma TextOfFour(v: Cell, w: Cell)
    ensures Text([w, v, v, v]) == Tok(w) + Tok(v) + Tok(v) + Tok(v)
  {
    assert [v][1..] == [];
    assert Text([v]) == Tok(v);
    assert [v, v][1..] == [v];
    assert Text([v, v]) == Tok(v) + Tok(v);
    assert [v, v, v][1..] == [v, v];
    assert Text([v, v, v]) == Tok(v) + Tok(v) + Tok(v);
    assert [w, v, v, v][1..] == [v, v, v];
  }

  /** Four consecutive cells holding the mover's piece put the mover's
      pattern into the text of the run. */
  lemma RunIncludesPattern(s: seq<Cell>, i: int, turn: nat)
    requires 0 <= i && i + 4 <= |s|
    requires forall t | i <= t < i + 4 :: s[t] == Piece(turn)
    ensures Includes(Text(s), Pattern(turn))
  {
    var v := Piece(turn);
    assert s[i..i + 4] == [v, v, v, v];
    TextOfFour(v, v);
    assert Text(s[i..i + 4]) == Pattern(turn);
    assert OccursAt(Text(s[i..i + 4]), Pattern(turn), 0);
    IncludesWithin(s, i, i + 4, Pattern(turn));
  }

  /** The text of a -1 piece followed by three 1 pieces is "-1111". */
  lemma MinusOneText()
    ensures Includes(Text([P2, P1, P1, P1]), Pattern(0))
  {
    TextOfFour(P1, P2);
    var t := Text([P2, P1, P1, P1]);
    assert t == ['-', '1', '1', '1', '1'];
    assert t[1..] == Pattern(0);
    assert OccursAt(t, Pattern(0), 1);
  }

  /** The quirk of searching text: a -1 piece followed by three 1 pieces reads
      "-1111", which contains the first player's "1111". */
  lemma MinusOneThenThreeOnes(s: seq<Cell>, i: int)
    requires 0 <= i && i + 4 <= |s|
    requires s[i] == P2 && s[i + 1] == P1 && s[i + 2] == P1 && s[i + 3] == P1
    ensures Includes(Text(s), Pattern(0))
  {
    assert s[i..i + 4] == [P2, P1, P1, P1];
    MinusOneText();
    IncludesWithin(s, i, i + 4, Pattern(0));
  }

  lemma {:induction false} WalkBackVertical(b: seq<seq<Cell>>, x: int, y: int)
    requires Rect(b) && 0 <= x < |b| && 0 <= y < Height(b)
    ensures WalkBack(b, x, y, Vertical) == Pos(x, 0)
    decreases y
  {
    if y > 0 {
      WalkBackVertical(b, x, y - 1);
    }
  }

  lemma {:induction false} ScanVertical(b: seq<seq<Cell>>, x: int, y: int)
    requires Rect(b) && 0 <= x < |b| && 0 <= y <= Height(b)
    ensures Scan(b, x, y, Vertical) == Text(b[x][y..])
    decreases Height(b) - y
  {
    if y < Height(b) {
      ScanVertical(b, x, y + 1);
      assert b[x][y..][1..] == b[x][y + 1..];
    }
  }

  lemma {:induction false} WalkBackHorizontal(b: seq<seq<Cell>>, x: int, y: int)
    requires Rect(b) && 0 <= x < |b| && 0 <= y < Height(b)
    ensures WalkBack(b, x, y, Horizontal) == Pos(0, y)
    decreases x
  {
    if x > 0 {
      WalkBackHorizontal(b, x - 1, y);
    }
  }

  lemma {:induction false} ScanHorizontal(b: seq<seq<Cell>>, x: int, y: int)
    requires Rect(b) && 0 <= x <= |b| && 0 <= y < Height(b)
    ensures Scan(b, x, y, Horizontal) == Text(Row(b, y)[x..])
    decreases |b| - x
  {
    if x < |b| {
      ScanHorizontal(b, x + 1, y);
      assert Row(b, y)[x..][1..] == Row(b, y)[x + 1..];
    }
  }

  /** The vertical line through any cell is the whole column, bottom to top. */
  lemma VerticalLineIsColumn(b: seq<seq<Cell>>, x: int, y: int)
    requires Rect(b) && 0 <= x < |b| && 0 <= y < Height(b)
    ensures Line(b, x, y, Vertical) == Text(b[x])
  {
    WalkBackVertical(b, x, y);
    ScanVertical(b, x, 0);
    assert b[x][0..] == b[x];
  }

  /** The horizontal line through any cell is its whole row, left to right. */
  lemma HorizontalLineIsRow(b: seq<seq<Cell>>, x: int, y: int)
    requires Rect(b) && 0 <= x < |b| && 0 <= y < Height(b)
    ensures Line(b, x, y, Horizontal) == Text(Row(b, y))
  {
    WalkBackHorizontal(b, x, y);
    ScanHorizontal(b, 0, y);
    assert Row(b, y)[0..] == Row(b, y);
  }

  lemma {:induction false} WalkBackAnti(b: seq<seq<Cell>>, x: int, y: int)
    requires Rect(b) && 0 <= x < |b| && 0 <= y < Height(b)
    ensures x + y < |b| ==> WalkBack(b, x, y, AntiDiagonal) == Pos(x + y, 0)
    ensures x + y >= |b| ==> WalkBack(b, x, y, AntiDiagonal).x == |b|
    decreases y
  {
    if y > 0 && x + 1 < |b| {
      WalkBackAnti(b, x + 1, y - 1);
    } else if y > 0 {
      assert WalkBack(b, x + 1, y - 1, AntiDiagonal) == Pos(x + 1, y - 1);
    }
  }

  /** The walk back along [-1, 1] checks the bounds of the cell it stands on,
      not of the next one, so it can leave the board at column == width; the
      anti-diagonal line is then empty. It is non-empty exactly when
      column + row < width. */
  lemma AntiDiagonalLine(b: seq<seq<Cell>>, x: int, y: int)
    requires Rect(b) && 0 <= x < |b| && 0 <= y < Height(b)
    ensures Line(b, x, y, AntiDiagonal) == "" <==> x + y >= |b|
  {
    WalkBackAnti(b, x, y);
    if x + y < |b| {
      assert InBoard(b, x + y, 0);
      assert |Line(b, x, y, AntiDiagonal)| >= |Tok(b[x + y][0])|;
    }
  }

  /** Under gravity the row `_isGameOver` derives from the column's first 0
      is the row the piece was placed in. */
  lemma PlacedRowIsPlacement(g: Game, column: int)
    requires Rect(g.board) && 0 <= column < |g.board|
    requires Zero in g.board[column] && Settled(g.board[column])
    ensures PlacedRow(Place(g, column), column) == IndexOf(g.board[column], Zero)
  {
    var col := g.board[column];
    var k := IndexOf(col, Zero);
    var b := Place(g, column);
    var col' := b[column];
    assert col' == col[k := Piece(g.turn)];
    assert Zero !in col'[..k + 1] by {
      assert col'[..k + 1] == col[..k] + [Piece(g.turn)];
    }
    if k + 1 < |col| {
      var i := IndexOf(col', Zero);
      assert col'[k + 1] == Zero;
    } else {
      assert col'[..k + 1] == col';
    }
  }

  /** Four of the mover's pieces in a row anywhere in the placed piece's
      column end the game. */
  lemma VerticalFourEnds(g: Game, column: int, y: int)
    requires Rect(g.board) && 0 <= column < |g.board| && Zero in g.board[column]
    requires 0 <= y && y + 4 <= Height(g.board)
    requires forall t | y <= t < y + 4 :: Place(g, column)[column][t] == Piece(g.turn)
    ensures Move(g, column).ret == Ended(g.turn % 2)
    ensures Move(g, column).game.gameOver && Move(g, column).game.winner == Slot(g.turn % 2)
  {
    var b := Place(g, column);
    var row := PlacedRow(b, column);
    VerticalLineIsColumn(b, column, row);
    RunIncludesPattern(b[column], y, g.turn);
    assert LineHit(b, g.turn, column);
  }

  /** Under gravity, four of the mover's pieces in a row anywhere in the
      placed piece's row end the game. */
  lemma HorizontalFourEnds(g: Game, column: int, x: int)
    requires Rect(g.board) && 0 <= column < |g.board| && Zero in g.board[column]
    requires Settled(g.board[column])
    requires 0 <= x && x + 4 <= |g.board|
    requires forall t | x <= t < x + 4 :: Place(g, column)[t][IndexOf(g.board[column], Zero)] == Piece(g.turn)
    ensures Move(g, column).ret == Ended(g.turn % 2)
    ensures Move(g, column).game.gameOver && Move(g, column).game.winner == Slot(g.turn % 2)
  {
    var b := Place(g, column);
    var row := PlacedRow(b, column);
    PlacedRowIsPlacement(g, column);
    HorizontalLineIsRow(b, column, row);
    RunIncludesPattern(Row(b, row), x, g.turn);
    assert LineHit(b, g.turn, column);
  }

  /** The first player wins with only three pieces stacked on a -1: the
      column's text "-1111" contains "1111". */
  lemma ThreeOnesOnMinusOneEnds(g: Game, column: int, y: int)
    requires Rect(g.board) && 0 <= column < |g.board| && Zero in g.board[column]
    requires g.turn % 2 == 0
    requires 0 <= y && y + 4 <= Height(g.board)
    requires Place(g, column)[column][y] == P2
    requires forall t | y < t < y + 4 :: Place(g, column)[column][t] == P1
    ensures Move(g, column).ret == Ended(0)
    ensures Move(g, column).game.gameOver && Move(g, column).game.winner == Slot(0)
  {
    var b := Place(g, column);
    var row := PlacedRow(b, column);
    VerticalLineIsColumn(b, column, row);
    MinusOneThenThreeOnes(b[column], y);
    assert Pattern(0) == Pattern(g.turn);
    assert LineHit(b, g.turn, column);
  }

  /** The number of "1" characters in a text. */
  function Ones(t: string): nat {
    if |t| == 0 then 0 else (if t[0] == '1' then 1 else 0) + Ones(t[1..])
  }

  lemma OnesOfSlice(t: string, i: int, j: int)
    requires 0 <= i <= j <= |t|
    ensures Ones(t[i..j]) <= Ones(t)
  {
    assert t == t[..i] + t[i..j] + t[j..];
    OnesAppend(t[..i], t[i..j]);
    OnesAppend(t[..i] + t[i..j], t[j..]);
  }

  lemma PatternOnes()
    ensures |Pattern(0)| == 4 && Ones(Pattern(0)) == 4
  {
  }

  /** "1111" needs four "1" characters, so it occurs nowhere in a text with
      fewer. */
  lemma NoPatternWithFewOnes(t: string)
    requires Ones(t) < 4
    ensures !Includes(t, Pattern(0))
  {
    PatternOnes();
    forall i | 0 <= i <= |t| ensures !OccursAt(t, Pattern(0), i) {
      if i + 4 <= |t| {
        OnesOfSlice(t, i, i + 4);
        assert t[i..i + 4] != Pattern(0);
        assert t[i..][..4] == t[i..i + 4];
      }
    }
  }

  /** Every cell is 0 except the bottom cell of column `c`, which holds 1:
      the board after the first move on a new one. */
  predicate Lone(b: seq<seq<Cell>>, c: int)
    requires Rect(b)
  {
    forall x, y | 0 <= x < |b| && 0 <= y < Height(b) :: b[x][y] == if x == c && y == 0 then P1 else Zero
  }

  /** The scan from (x, y) in direction `d` can reach the bottom cell of
      column `c`. */
  predicate Reaches(c: int, x: int, y: int, d: Dir) {
    y == 0 && if d == Horizontal then x <= c else x == c
  }

  /** The number of 1 pieces the scan from (x, y) can still meet. */
  function ReachCount(c: int, x: int, y: int, d: Dir): nat {
    if Reaches(c, x, y, d) then 1 else 0
  }

  /** The number of 1 pieces at (x, y). */
  function PieceCount(c: int, x: int, y: int): nat {
    if x == c && y == 0 then 1 else 0
  }

  lemma {:induction false} OnesAppend(a: string, b: string)
    ensures Ones(a + b) == Ones(a) + Ones(b)
    decreases |a|
  {
    if |a| > 0 {
      OnesAppend(a[1..], b);
      assert (a + b)[1..] == a[1..] + b;
    } else {
      assert a + b == b;
    }
  }

  /** The one cell of text a scan step adds holds a "1" only at the piece. */
  lemma CellOnes(b: seq<seq<Cell>>, c: int, x: int, y: int)
    requires Rect(b) && Lone(b, c) && InBoard(b, x, y)
    ensures Ones(Tok(b[x][y])) == PieceCount(c, x, y)
  {
  }

  /** The count of a scan step: the cell's "1" (only at the piece) plus the
      rest's count, which is 0 unless the next cell can still reach the
      piece, stays within what this cell can reach. */
  lemma StepCount(c: int, x: int, y: int, d: Dir, here: nat, rest: nat)
    requires 0 <= y
    requires here == PieceCount(c, x, y)
    requires rest <= ReachCount(c, x + DX(d), y + DY(d), d)
    ensures here + rest <= ReachCount(c, x, y, d)
  {
  }

  /** A scan over such a board meets at most the one 1 piece. */
  lemma {:induction false} ScanOnes(b: seq<seq<Cell>>, c: int, x: int, y: int, d: Dir)
    requires Rect(b) && Lone(b, c)
    ensures Ones(Scan(b, x, y, d)) <= ReachCount(c, x, y, d)
    decreases if d == Horizontal then |b| - x else Height(b) - y
  {
    if InBoard(b, x, y) {
      var rest := Scan(b, x + DX(d), y + DY(d), d);
      ScanOnes(b, c, x + DX(d), y + DY(d), d);
      CellOnes(b, c, x, y);
      ScanStepOnes(b, x, y, d);
      StepCount(c, x, y, d, Ones(Tok(b[x][y])), Ones(rest));
    } else {
      assert Scan(b, x, y, d) == "";
      assert Ones("") == 0;
    }
  }

  /** One step of a scan adds the cell's "1" characters to the rest's. */
  lemma ScanStepOnes(b: seq<seq<Cell>>, x: int, y: int, d: Dir)
    requires Rect(b) && InBoard(b, x, y)
    ensures Ones(Scan(b, x, y, d)) == Ones(Tok(b[x][y])) + Ones(Scan(b, x + DX(d), y + DY(d), d))
  {
    OnesAppend(Tok(b[x][y]), Scan(b, x + DX(d), y + DY(d), d));
  }

  /** On a new board at least two cells high, the first move in any column
      continues the game: a lone piece makes no four, and a 0 cell is left. */
  lemma FirstMoveContinues(width: nat, height: nat, column: nat)
    requires column < width && height >= 2
    ensures Move(NewGame(width, height), column).ret == Continue
    ensures Move(NewGame(width, height), column).game.turn == 1
  {
    var g := NewGame(width, height);
    assert g.board[column][0] == Zero;
    var b := Place(g, column);
    assert Lone(b, column);
    assert b[column][1] == Zero;
    var y := PlacedRow(b, column);
    forall d: Dir ensures !Includes(Line(b, column, y, d), Pattern(0)) {
      var p := WalkBack(b, column, y, d);
      ScanOnes(b, column, p.x, p.y, d);
      NoPatternWithFewOnes(Line(b, column, y, d));
    }
  }
}

=== FILE: common.dfy ===
/** Helpers shared by the whole model: optional results, random draws and the
    `Math.floor(Math.random() * n)` index the source computes everywhere,
    sums of reals, and sequence reversal. */
module Common {

  /** `null` / `undefined` versus a value. */
  datatype Option<+T> = None | Some(value: T)

  /** A value `Math.random()` can return. */
  predicate IsDraw(r: real) {
    0.0 <= r < 1.0
  }

  predicate AllDraws(ds: seq<real>) {
    forall k | 0 <= k < |ds| :: IsDraw(ds[k])
  }

  /** `Math.floor(r * n)` for a draw `r`: an index into a collection of `n`
      elements, and 0 when there are none. */
  function FloorTimes(r: real, n: nat): (k: int)
    requires IsDraw(r)
    ensures n == 0 ==> k == 0
    ensures n > 0 ==> 0 <= k < n
  {
    var x := r * n as real;
    assert 0.0 <= x;
    assert n > 0 ==> x < n as real by {
      if n > 0 {
        assert (1.0 - r) * n as real > 0.0;
      }
    }
    x.Floor
  }

  /** The sum `reduce((a, b) => a + b)` computes, folded from the left. */
  function Sum(s: seq<real>): real {
    if |s| == 0 then 0.0 else Sum(s[..|s| - 1]) + s[|s| - 1]
  }

  /** What `Array.prototype.reverse` leaves in the array. */
  function Reverse<T>(s: seq<T>): seq<T> {
    seq(|s|, i requires 0 <= i < |s| => s[|s| - 1 - i])
  }

  lemma ReverseReverse<T>(s: seq<T>)
    ensures Reverse(Reverse(s)) == s
  {
  }
}

=== FILE: evolution.dfy ===
/** The topology search of `geneticNN` in main.js: a topology is the list of
    hidden-layer sizes of a network. `genLayer`, `genLayers` and the five
    `mutate` operators are functions of the `Math.random()` values they
    consume, and the fill loop of `mutate` consumes a finite stream of draws,
    giving `None` if the stream runs out before the population is full. */
module Evolution {
  import opened Common

  type Topology = seq<int>

  /** `genLayer`: `Math.floor(r * (maxN - 1) + 1)`. */
  function GenLayer(maxN: int, r: real): (n: int)
    requires IsDraw(r)
    ensures maxN >= 2 ==> 1 <= n <= maxN - 1
    ensures maxN == 1 ==> n == 1
  {
    var x := r * (maxN - 1) as real + 1.0;
    assert maxN >= 2 ==> x < maxN as real by {
      if maxN >= 2 {
        assert (1.0 - r) * (maxN - 1) as real > 0.0;
      }
    }
    x.Floor
  }

  /** Every size lies in [1, maxN - 1]. */
  predicate Sized(t: Topology, maxN: int) {
    forall k | 0 <= k < |t| :: 1 <= t[k] <= maxN - 1
  }

  /** A topology with at most `maxLayers` layers, each of a size `genLayer`
      can produce. */
  predicate Bounded(t: Topology, maxLayers: nat, maxN: int) {
    |t| <= maxLayers && Sized(t, maxN)
  }

  /** `genLayers`: `Math.floor(r * maxLayers)` layers, the k-th of size
      `genLayer()` on the k-th following draw. */
  function GenLayers(maxLayers: nat, maxN: int, r: real, sizes: seq<real>): (t: Topology)
    requires IsDraw(r) && AllDraws(sizes) && |sizes| >= FloorTimes(r, maxLayers)
    ensures |t| == FloorTimes(r, maxLayers)
    ensures maxLayers > 0 ==> |t| < maxLayers
    ensures forall k | 0 <= k < |t| :: t[k] == GenLayer(maxN, sizes[k])
    ensures maxN >= 2 ==> Bounded(t, maxLayers, maxN)
  {
    seq(FloorTimes(r, maxLayers), k requires 0 <= k < FloorTimes(r, maxLayers) => GenLayer(maxN, sizes[k]))
  }

  /** `[...t.slice(0, i), ...t.slice(i + 1)]` with `i = Math.floor(r * t.length)`:
      one layer removed, and an empty topology stays empty. */
  function DeleteAt(t: Topology, i: nat): (r: Topology)
    requires i < |t| || i == 0
    ensures |t| == 0 ==> r == []
    ensures |t| > 0 ==> |r| == |t| - 1
    ensures |t| > 0 ==> forall k | 0 <= k < |r| :: r[k] == if k < i then t[k] else t[k + 1]
    ensures forall k | 0 <= k < |r| :: r[k] in t
  {
    if |t| == 0 then [] else t[..i] + t[i + 1..]
  }

  /** `[...t.slice(0, i), v, ...t.slice(i + 1)]`: layer i gets size `v`; an
      empty topology becomes `[v]`. */
  function ReplaceAt(t: Topology, i: nat, v: int): (r: Topology)
    requires i < |t| || i == 0
    ensures |t| == 0 ==> r == [v]
    ensures |t| > 0 ==> |r| == |t| && r[i] == v
    ensures |t| > 0 ==> forall k | 0 <= k < |t| && k != i :: r[k] == t[k]
  {
    if |t| == 0 then [v] else t[..i] + [v] + t[i + 1..]
  }

  /** The crossover `[...a.slice(0, i)].concat(b.slice(j))`: a proper prefix
      of `a` (when `a` is not empty) followed by a suffix of `b`. */
  function Splice(a: Topology, i: nat, b: Topology, j: nat): (r: Topology)
    requires i < |a| || i == 0
    requires j < |b| || j == 0
    ensures |r| == i + |b| - j
    ensures |a| > 0 ==> i < |a|
    ensures forall k | 0 <= k < |r| :: (k < i && r[k] == a[k]) || (i <= k && r[k] == b[k - i + j])
  {
    a[..i] + b[j..]
  }

  /** The result of a draw-consuming operation and the number of draws used. */
  datatype Drawn = Drawn(value: Topology, used: nat)

  /** The crossover's `while (newSubs.length > maxLayers)` loop, deleting the
      layer at `Math.floor(r * newSubs.length)` for each draw `r`: it stops at
      exactly `maxLayers` layers, using one draw per deletion, and keeps only
      layers of its input. */
  function TrimTo(t: Topology, maxLayers: nat, draws: seq<real>): (r: Option<Drawn>)
    requires AllDraws(draws)
    ensures r.Some? <==> |t| <= maxLayers + |draws|
    ensures r.Some? && |t| <= maxLayers ==> r.value == Drawn(t, 0)
    ensures r.Some? && |t| > maxLayers ==> |r.value.value| == maxLayers && r.value.used == |t| - maxLayers
    ensures r.Some? ==> forall k | 0 <= k < |r.value.value| :: r.value.value[k] in t
    decreases |t|
  {
    if |t| <= maxLayers then Some(Drawn(t, 0))
    else if |draws| == 0 then None
    else
      var shorter := DeleteAt(t, FloorTimes(draws[0], |t|));
      match TrimTo(shorter, maxLayers, draws[1..])
      case None => None
      case Some(d) => Some(Drawn(d.value, d.used + 1))
  }

  /** What one pass of the `mutate` loop adds: a topology, or nothing. */
  datatype Produced = Produced(child: Option<Topology>, used: nat)

  /** The survivor `substructures[Math.floor(r * survivors)]`. */
  function Pick(subs: seq<Topology>, survivors: nat, r: real): (t: Topology)
    requires IsDraw(r) && 1 <= |subs| && survivors <= |subs|
    ensures t in subs
  {
    subs[FloorTimes(r, survivors)]
  }

  /** One pass of the `mutate` loop on the draws `d`, branching on `d[0]`:
      above 0.9 a fresh `genLayers()`; above 0.75 the insert, whose result
      goes into a shadowing local and is lost, so nothing is added; above 0.6
      a deletion; above 0.35 a replacement; otherwise a crossover of two
      survivors trimmed to `maxLayers`. `None` when the draws run out. */
  function FillStep(subs: seq<Topology>, survivors: nat, maxLayers: nat, maxN: int, d: seq<real>): (p: Option<Produced>)
    requires 1 <= |subs| && survivors <= |subs| && AllDraws(d)
    ensures p.Some? ==> 1 <= p.value.used <= |d|
  {
    if |d| < 2 then None
    else if d[0] > 0.9 then
      var count := FloorTimes(d[1], maxLayers);
      if |d| < 2 + count then None
      else Some(Produced(Some(GenLayers(maxLayers, maxN, d[1], d[2..2 + count])), 2 + count))
    else if d[0] > 0.75 then
      if |d| < 4 then None else Some(Produced(None, 4))
    else if d[0] > 0.6 then
      if |d| < 3 then None
      else
        var t := Pick(subs, survivors, d[1]);
        Some(Produced(Some(DeleteAt(t, FloorTimes(d[2], |t|))), 3))
    else if d[0] > 0.35 then
      if |d| < 4 then None
      else
        var t := Pick(subs, survivors, d[1]);
        Some(Produced(Some(ReplaceAt(t, FloorTimes(d[2], |t|), GenLayer(maxN, d[3]))), 4))
    else
      if |d| < 5 then None
      else
        var a := Pick(subs, survivors, d[1]);
        var b := Pick(subs, survivors, d[2]);
        var joined := Splice(a, FloorTimes(d[3], |a|), b, FloorTimes(d[4], |b|));
        match TrimTo(joined, maxLayers, d[5..])
        case None => None
        case Some(x) => Some(Produced(Some(x.value), 5 + x.used))
  }

  /** The loop `while (substructures.length + newLayers.length < popSize)`,
      then `substructures.concat(newLayers)`. */
  function Fill(subs: seq<Topology>, added: seq<Topology>, popSize: nat, survivors: nat, maxLayers: nat, maxN: int, d: seq<real>): (r: Option<seq<Topology>>)
    requires |subs| + |added| < popSize ==> 1 <= |subs| && survivors <= |subs|
    requires AllDraws(d)
    ensures r.Some? ==> |r.value| >= |subs| + |added| && r.value[..|subs| + |added|] == subs + added
    ensures r.Some? && |subs| + |added| <= popSize ==> |r.value| == popSize
    ensures r.Some? && |subs| + |added| >= popSize ==> r.value == subs + added
    decreases |d|
  {
    if |subs| + |added| >= popSize then Some(subs + added)
    else
      match FillStep(subs, survivors, maxLayers, maxN, d)
      case None => None
      case Some(p) =>
        var added' := if p.child.Some? then added + [p.child.value] else added;
        var r := Fill(subs, added', popSize, survivors, maxLayers, maxN, d[p.used..]);
        assert r.Some? ==> r.value[..|subs| + |added|] == (subs + added') [..|subs| + |added|];
        r
  }

  /** `mutate(substructures)`: the survivors come back first and unchanged;
      the population is topped up to exactly `popSize`, or returned as it is
      when it already has `popSize` or more. */
  function Mutate(subs: seq<Topology>, popSize: nat, survivors: nat, maxLayers: nat, maxN: int, d: seq<real>): (r: Option<seq<Topology>>)
    requires |subs| < popSize ==> 1 <= |subs| && survivors <= |subs|
    requires AllDraws(d)
    ensures r.Some? ==> |r.value| >= |subs| && r.value[..|subs|] == subs
    ensures r.Some? && |subs| <= popSize ==> |r.value| == popSize
    ensures |subs| >= popSize ==> r == Some(subs)
  {
    assert subs + [] == subs;
    Fill(subs, [], popSize, survivors, maxLayers, maxN, d)
  }
}

=== FILE: evolution_facts.dfy ===
/** Properties of `mutate` across passes: every topology it returns stays
    within `maxLayers` layers of sizes `genLayer` can produce, and a pass
    that takes the insert branch only burns draws. */
module EvolutionFacts {
  import opened Common
  import opened Evolution

  predicate AllBounded(ts: seq<Topology>, maxLayers: nat, maxN: int) {
    forall k | 0 <= k < |ts| :: Bounded(ts[k], maxLayers, maxN)
  }

  /** Every operator turns bounded survivors into a bounded child. */
  lemma FillStepBounded(subs: seq<Topology>, survivors: nat, maxLayers: nat, maxN: int, d: seq<real>)
    requires 1 <= |subs| && survivors <= |subs| && AllDraws(d)
    requires AllBounded(subs, maxLayers, maxN) && maxN >= 2 && maxLayers >= 1
    ensures var p := FillStep(subs, survivors, maxLayers, maxN, d);
      p.Some? && p.value.child.Some? ==> Bounded(p.value.child.value, maxLayers, maxN)
  {
    if |d| >= 5 && d[0] <= 0.35 {
      var a := Pick(subs, survivors, d[1]);
      var b := Pick(subs, survivors, d[2]);
      var joined := Splice(a, FloorTimes(d[3], |a|), b, FloorTimes(d[4], |b|));
      assert Sized(joined, maxN) by {
        forall k | 0 <= k < |joined| ensures 1 <= joined[k] <= maxN - 1 {
          if k < FloorTimes(d[3], |a|) {
            assert joined[k] == a[k];
          } else {
            assert joined[k] == b[k - FloorTimes(d[3], |a|) + FloorTimes(d[4], |b|)];
          }
        }
      }
    }
  }

  lemma {:induction false} FillBounded(subs: seq<Topology>, added: seq<Topology>, popSize: nat, survivors: nat, maxLayers: nat, maxN: int, d: seq<real>)
    requires |subs| + |added| < popSize ==> 1 <= |subs| && survivors <= |subs|
    requires AllDraws(d)
    requires AllBounded(subs, maxLayers, maxN) && AllBounded(added, maxLayers, maxN) && maxN >= 2 && maxLayers >= 1
    ensures var r := Fill(subs, added, popSize, survivors, maxLayers, maxN, d);
      r.Some? ==> AllBounded(r.value, maxLayers, maxN)
    decreases |d|
  {
    if |subs| + |added| < popSize {
      FillStepBounded(subs, survivors, maxLayers, maxN, d);
      var p := FillStep(subs, survivors, maxLayers, maxN, d);
      if p.Some? {
        var added' := if p.value.child.Some? then added + [p.value.child.value] else added;
        FillBounded(subs, added', popSize, survivors, maxLayers, maxN, d[p.value.used..]);
      }
    }
  }

  /** Starting from survivors of at most `maxLayers` layers with sizes in
      [1, maxN - 1], every topology `mutate` returns is bounded the same way. */
  lemma MutateKeepsBounded(subs: seq<Topology>, popSize: nat, survivors: nat, maxLayers: nat, maxN: int, d: seq<real>)
    requires |subs| < popSize ==> 1 <= |subs| && survivors <= |subs|
    requires AllDraws(d)
    requires AllBounded(subs, maxLayers, maxN) && maxN >= 2 && maxLayers >= 1
    ensures var r := Mutate(subs, popSize, survivors, maxLayers, maxN, d);
      r.Some? ==> AllBounded(r.value, maxLayers, maxN)
  {
    FillBounded(subs, [], popSize, survivors, maxLayers, maxN, d);
  }

  /** A pass whose first draw selects the insert branch (0.75 < r <= 0.9)
      consumes four draws and leaves the population exactly as the rest of
      the stream would have. */
  lemma InsertPassIsWasted(subs: seq<Topology>, added: seq<Topology>, popSize: nat, survivors: nat, maxLayers: nat, maxN: int, d: seq<real>)
    requires |subs| + |added| < popSize && 1 <= |subs| && survivors <= |subs|
    requires AllDraws(d) && |d| >= 4 && 0.75 < d[0] <= 0.9
    ensures Fill(subs, added, popSize, survivors, maxLayers, maxN, d) == Fill(subs, added, popSize, survivors, maxLayers, maxN, d[4..])
  {
  }
}

=== FILE: net.dfy ===
/** The network engine of components/nn.js: a network is a list of layers, a
    layer a list of nodes, a node its weights and a bias. Weights are reals
    and the activation function is a parameter, so what is stated here is
    the shape of every result and the linear arithmetic of the update rule. */
module Net {
  import opened Common

  datatype Node = Node(weights: seq<real>, bias: real)

  type Layer = seq<Node>

  type Network = seq<Layer>

  /** A training case `[input, output]`. */
  datatype Example = Example(input: seq<real>, target: seq<real>)

  /** The learning constant `alpha`. */
  const Alpha: real := 0.5

  /** The most passes `train` makes in one call. */
  const MaxEpochs: int := 1000

  /** Two networks with the same number of layers, nodes per layer and
      weights per node. */
  predicate SameShape(a: Network, b: Network) {
    && |a| == |b|
    && (forall i | 0 <= i < |a| :: |a[i]| == |b[i]|)
    && (forall i, j | 0 <= i < |a| && 0 <= j < |a[i]| && j < |b[i]| :: |a[i][j].weights| == |b[i][j].weights|)
  }

  /** What `predict` needs to run on an input of `n` numbers without a
      `reduce` of an empty array or a missing input: every layer has nodes,
      and every node has one weight per value its layer receives. */
  predicate Shaped(nn: Network, n: nat) {
    && (|nn| > 0 ==> n >= 1)
    && (forall i | 0 <= i < |nn| :: |nn[i]| >= 1)
    && (forall i, j | 0 <= i < |nn| && 0 <= j < |nn[i]| ::
          |nn[i][j].weights| == if i == 0 then n else |nn[i - 1]|)
  }

  /** The length of `predict`'s result on an input of `n` numbers. */
  function OutWidth(nn: Network, n: nat): nat {
    if |nn| == 0 then n else |nn[|nn| - 1]|
  }

  /** `weights.map((w, i) => w * input[i]).reduce((a, b) => a + b)`. */
  function Dot(w: seq<real>, x: seq<real>): real
    requires |w| <= |x|
  {
    Sum(seq(|w|, i requires 0 <= i < |w| => w[i] * x[i]))
  }

  /** `activateLayer`: node j's output is the activation of its dot product
      plus j, the map index, where its stored bias was evidently meant. */
  function ActivateLayer(sig: real -> real, layer: Layer, x: seq<real>): (out: seq<real>)
    requires forall j | 0 <= j < |layer| :: |layer[j].weights| <= |x|
    ensures |out| == |layer|
  {
    seq(|layer|, j requires 0 <= j < |layer| => sig(Dot(layer[j].weights, x) + j as real))
  }

  /** `predict`: the input passed through every layer in turn. */
  function Predict(sig: real -> real, nn: Network, x: seq<real>): (out: seq<real>)
    requires Shaped(nn, |x|)
    ensures |nn| == 0 ==> out == x
    ensures |out| == OutWidth(nn, |x|)
    decreases |nn|
  {
    if |nn| == 0 then x
    else
      var y := ActivateLayer(sig, nn[0], x);
      assert Shaped(nn[1..], |y|) by {
        forall i, j | 0 <= i < |nn[1..]| && 0 <= j < |nn[1..][i]|
          ensures |nn[1..][i][j].weights| == if i == 0 then |y| else |nn[1..][i - 1]|
        {
          assert nn[1..][i] == nn[i + 1];
        }
      }
      Predict(sig, nn[1..], y)
  }

  /** `update` once both arguments are back in input-to-output order: every
      weight of node j in layer i moves by delta * (alpha + alpha^2), its bias
      by delta * alpha. */
  function Update(nn: Network, deltas: seq<seq<real>>): (r: Network)
    requires |deltas| == |nn| && forall i | 0 <= i < |nn| :: |deltas[i]| == |nn[i]|
    ensures SameShape(r, nn)
    ensures forall i, j, k | 0 <= i < |nn| && 0 <= j < |nn[i]| && 0 <= k < |nn[i][j].weights| ::
      r[i][j].weights[k] == nn[i][j].weights[k] + 0.75 * deltas[i][j]
    ensures forall i, j | 0 <= i < |nn| && 0 <= j < |nn[i]| :: r[i][j].bias == nn[i][j].bias + 0.5 * deltas[i][j]
  {
    seq(|nn|, i requires 0 <= i < |nn| =>
      seq(|nn[i]|, j requires 0 <= j < |nn[i]| =>
        var n := nn[i][j];
        Node(seq(|n.weights|, k requires 0 <= k < |n.weights| => n.weights[k] + deltas[i][j] * (Alpha + Alpha * Alpha)),
             n.bias + Alpha * deltas[i][j])))
  }

  /** The error term r * (1 - r) * (e - r) of an output r expected to be e. */
  function ErrorTerm(r: real, e: real): real {
    r * (1.0 - r) * (e - r)
  }

  /** The output layer's deltas, one error term per node. */
  function OutputDeltas(layer: Layer, result: seq<real>, expected: seq<real>): seq<real>
    requires |result| >= |layer| && |expected| >= |layer|
  {
    seq(|layer|, j requires 0 <= j < |layer| => ErrorTerm(result[j], expected[j]))
  }

  /** The value a hidden node's delta gets from the layer it feeds: over that
      layer's nodes, the sum of each weight times the node's delta. It does
      not depend on which hidden node asks. */
  function HiddenDelta(next: Layer, d: seq<real>): real
    requires |d| == |next|
  {
    Sum(seq(|next|, j requires 0 <= j < |next| =>
      Sum(seq(|next[j].weights|, k requires 0 <= k < |next[j].weights| => next[j].weights[k] * d[j]))))
  }

  /** A hidden layer's delta row: one shared value for each of its `n` nodes. */
  function SharedRow(n: nat, v: real): (row: seq<real>)
    ensures |row| == n && forall j | 0 <= j < n :: row[j] == v
  {
    seq(n, _ => v)
  }

  /** The delta rows `backprop`'s `forEach` has pushed after visiting the
      first `n` layers of the reversed network (output layer first). */
  function PushedDeltas(rev: Network, result: seq<real>, expected: seq<real>, n: nat): (ds: seq<seq<real>>)
    requires n <= |rev|
    requires |rev| > 0 ==> |result| >= |rev[0]| && |expected| >= |rev[0]|
    ensures |ds| == n && forall i | 0 <= i < n :: |ds[i]| == |rev[i]|
  {
    if n == 0 then []
    else
      var prev := PushedDeltas(rev, result, expected, n - 1);
      var i := n - 1;
      prev + [if i == 0 then OutputDeltas(rev[0], result, expected)
              else SharedRow(|rev[i]|, HiddenDelta(rev[i - 1], prev[i - 1]))]
  }

  /** `backprop`: reverse the network in place, push a delta row per layer,
      then `update` reverses the network and the deltas back and applies them. */
  function Backprop(nn: Network, result: seq<real>, expected: seq<real>): (r: Network)
    requires |nn| > 0 ==> |result| >= |nn[|nn| - 1]| && |expected| >= |nn[|nn| - 1]|
    ensures SameShape(r, nn)
  {
    var rev := Reverse(nn);
    var ds := PushedDeltas(rev, result, expected, |rev|);
    ReverseReverse(nn);
    Update(Reverse(rev), Reverse(ds))
  }

  /** A training case `predict` and `backprop` accept for this network. */
  predicate Fits(nn: Network, e: Example) {
    Shaped(nn, |e.input|) && (|nn| > 0 ==> |e.target| >= |nn[|nn| - 1]|)
  }

  predicate AllFit(nn: Network, data: seq<Example>) {
    forall k | 0 <= k < |data| :: Fits(nn, data[k])
  }

  /** Whether a case fits depends on the network's shape only. */
  lemma SameShapeFits(a: Network, b: Network, data: seq<Example>)
    requires SameShape(a, b) && AllFit(a, data)
    ensures AllFit(b, data)
  {
  }

  lemma SameShapeTrans(a: Network, b: Network, c: Network)
    requires SameShape(a, b) && SameShape(b, c)
    ensures SameShape(a, c)
  {
  }

  /** One pass of `data.forEach(([input, output]) => nn = backprop(nn, predict(nn, input), output))`. */
  function Epoch(sig: real -> real, nn: Network, data: seq<Example>): (r: Network)
    requires AllFit(nn, data)
    ensures SameShape(r, nn)
    decreases |data|
  {
    if |data| == 0 then nn
    else
      assert Fits(nn, data[0]);
      var next := Backprop(nn, Predict(sig, nn, data[0].input), data[0].target);
      SameShapeFits(nn, next, data[1..]);
      var r := Epoch(sig, next, data[1..]);
      SameShapeTrans(r, next, nn);
      r
  }

  /** `train`: the epoch count is cut to 1000, a count below 1 returns the
      network as it is, and otherwise one pass is made and `train` recurses
      with one epoch fewer. */
  function Train(sig: real -> real, nn: Network, data: seq<Example>, epochs: int): (r: Network)
    requires AllFit(nn, data)
    ensures SameShape(r, nn)
    decreases if epochs > MaxEpochs then MaxEpochs else epochs
  {
    var e := if epochs > MaxEpochs then MaxEpochs else epochs;
    if e < 1 then nn
    else
      var next := Epoch(sig, nn, data);
      SameShapeFits(nn, next, data);
      Train(sig, next, data, e - 1)
  }

  /** One node of layer i: `width` drawn weights and the bias `alpha`. */
  function FreshNode(i: nat, j: nat, width: nat, draw: (nat, nat, nat) -> real): (n: Node)
    ensures |n.weights| == width && n.bias == Alpha
  {
    Node(seq(width, k requires 0 <= k => draw(i, j, k)), Alpha)
  }

  /** Layer i: `size` fresh nodes of `width` weights each. */
  function FreshLayer(i: nat, size: nat, width: nat, draw: (nat, nat, nat) -> real): (l: Layer)
    ensures |l| == size
    ensures forall j | 0 <= j < size :: |l[j].weights| == width && l[j].bias == Alpha
  {
    seq(size, j requires 0 <= j => FreshNode(i, j, width, draw))
  }

  /** The number of values layer i of `unfunn(inputSize, layers)` receives. */
  function InWidth(inputSize: nat, layers: seq<nat>, i: nat): nat
    requires i < |layers|
  {
    if i == 0 then inputSize else layers[i - 1]
  }

  /** `unfunn(inputSize, layers)`: layer i gets `layers[i]` nodes, each with
      one weight per node of the layer before (per input for layer 0), drawn
      by `draw(i, j, k)`, and the bias `alpha`. */
  function Unfunn(inputSize: nat, layers: seq<nat>, draw: (nat, nat, nat) -> real): (nn: Network)
    ensures |nn| == |layers|
    ensures forall i | 0 <= i < |layers| :: |nn[i]| == layers[i]
    ensures forall i, j | 0 <= i < |layers| && 0 <= j < |nn[i]| ::
      |nn[i][j].weights| == InWidth(inputSize, layers, i) && nn[i][j].bias == Alpha
  {
    var nn := seq(|layers|, i requires 0 <= i < |layers| => FreshLayer(i, layers[i], InWidth(inputSize, layers, i), draw));
    assert forall i | 0 <= i < |layers| :: nn[i] == FreshLayer(i, layers[i], InWidth(inputSize, layers, i), draw);
    nn
  }
}

=== FILE: net_facts.dfy ===
/** What `predict`, `backprop`, `train` and `unfunn` amount to: the stored
    biases never reach an output, the reversed back-propagation equals a
    forward-order delta rule in which a hidden layer's nodes all share one
    delta, and training is a clamped number of passes. */
module NetFacts {
  import opened Common
  import opened Net

  /** Two networks that differ at most in their biases. */
  predicate SameWeights(a: Network, b: Network) {
    && |a| == |b|
    && (forall i | 0 <= i < |a| :: |a[i]| == |b[i]|)
    && (forall i, j | 0 <= i < |a| && 0 <= j < |a[i]| && j < |b[i]| :: a[i][j].weights == b[i][j].weights)
  }

  lemma ActivateIgnoresBias(sig: real -> real, a: Layer, b: Layer, x: seq<real>)
    requires |a| == |b| && forall j | 0 <= j < |a| :: a[j].weights == b[j].weights && |a[j].weights| <= |x|
    ensures ActivateLayer(sig, a, x) == ActivateLayer(sig, b, x)
  {
  }

  /** `activateLayer` adds the node's index where the bias belongs, so two
      networks with the same weights predict the same output whatever their
      biases, including the biases `update` moves. */
  lemma {:induction false} PredictIgnoresBias(sig: real -> real, a: Network, b: Network, x: seq<real>)
    requires Shaped(a, |x|) && SameWeights(a, b)
    ensures Shaped(b, |x|)
    ensures Predict(sig, a, x) == Predict(sig, b, x)
    decreases |a|
  {
    if |a| > 0 {
      ActivateIgnoresBias(sig, a[0], b[0], x);
      var y := ActivateLayer(sig, a[0], x);
      assert Shaped(a[1..], |y|) by {
        forall i, j | 0 <= i < |a[1..]| && 0 <= j < |a[1..][i]|
          ensures |a[1..][i][j].weights| == if i == 0 then |y| else |a[1..][i - 1]|
        {
          assert a[1..][i] == a[i + 1];
        }
      }
      assert SameWeights(a[1..], b[1..]) by {
        forall i, j | 0 <= i < |a[1..]| && 0 <= j < |a[1..][i]|
          ensures a[1..][i][j].weights == b[1..][i][j].weights
        {
          assert a[1..][i] == a[i + 1] && b[1..][i] == b[i + 1];
        }
      }
      PredictIgnoresBias(sig, a[1..], b[1..], y);
    }
  }

  /** The delta of every node of layer i, in the network's own order: the
      output layer's from the error of its result, and each hidden layer's
      one shared value from the layer above it. */
  function DeltaRow(nn: Network, result: seq<real>, expected: seq<real>, i: nat): (d: seq<real>)
    requires i < |nn|
    requires |result| >= |nn[|nn| - 1]| && |expected| >= |nn[|nn| - 1]|
    ensures |d| == |nn[i]|
    decreases |nn| - i
  {
    if i == |nn| - 1 then OutputDeltas(nn[i], result, expected)
    else
      var above := DeltaRow(nn, result, expected, i + 1);
      SharedRow(|nn[i]|, HiddenDelta(nn[i + 1], above))
  }

  /** The forward-order delta table: one row per layer. */
  function Deltas(nn: Network, result: seq<real>, expected: seq<real>): (ds: seq<seq<real>>)
    requires |nn| > 0 ==> |result| >= |nn[|nn| - 1]| && |expected| >= |nn[|nn| - 1]|
    ensures |ds| == |nn| && forall i | 0 <= i < |nn| :: |ds[i]| == |nn[i]|
  {
    seq(|nn|, i requires 0 <= i < |nn| => DeltaRow(nn, result, expected, i))
  }

  /** The row pushed k-th in the reversed walk is the forward row of layer
      |nn| - 1 - k. */
  lemma {:induction false} PushedIsDeltaRow(nn: Network, result: seq<real>, expected: seq<real>, n: nat, k: nat)
    requires k < n <= |nn|
    requires |result| >= |nn[|nn| - 1]| && |expected| >= |nn[|nn| - 1]|
    ensures PushedDeltas(Reverse(nn), result, expected, n)[k] == DeltaRow(nn, result, expected, |nn| - 1 - k)
    decreases n
  {
    var rev := Reverse(nn);
    if k < n - 1 {
      PushedIsDeltaRow(nn, result, expected, n - 1, k);
    } else if k > 0 {
      var prev := PushedDeltas(rev, result, expected, n - 1);
      var i := |nn| - 1 - k;
      PushedIsDeltaRow(nn, result, expected, n - 1, k - 1);
      assert rev[k] == nn[i] && rev[k - 1] == nn[i + 1];
      assert PushedDeltas(rev, result, expected, n)[k] == SharedRow(|rev[k]|, HiddenDelta(rev[k - 1], prev[k - 1]));
    } else {
      assert rev[0] == nn[|nn| - 1];
    }
  }

  /** Reversed back, the rows pushed while walking from the output layer
      are the forward delta table. */
  lemma PushedReversedIsDeltas(nn: Network, result: seq<real>, expected: seq<real>)
    requires |nn| > 0 ==> |result| >= |nn[|nn| - 1]| && |expected| >= |nn[|nn| - 1]|
    ensures Reverse(PushedDeltas(Reverse(nn), result, expected, |nn|)) == Deltas(nn, result, expected)
  {
    var ds := PushedDeltas(Reverse(nn), result, expected, |nn|);
    var fwd := Deltas(nn, result, expected);
    assert |Reverse(ds)| == |fwd|;
    forall i | 0 <= i < |nn| ensures Reverse(ds)[i] == fwd[i] {
      assert Reverse(ds)[i] == ds[|nn| - 1 - i];
      assert fwd[i] == DeltaRow(nn, result, expected, i);
      PushedIsDeltaRow(nn, result, expected, |nn|, |nn| - 1 - i);
    }
  }

  /** `backprop` reverses the network, walks it from the output layer and
      reverses back; all of that is the forward delta rule applied through
      `update`. */
  lemma BackpropIsForwardUpdate(nn: Network, result: seq<real>, expected: seq<real>)
    requires |nn| > 0 ==> |result| >= |nn[|nn| - 1]| && |expected| >= |nn[|nn| - 1]|
    ensures Backprop(nn, result, expected) == Update(nn, Deltas(nn, result, expected))
  {
    ReverseReverse(nn);
    PushedReversedIsDeltas(nn, result, expected);
  }

  function LastLayer(nn: Network): Layer
    requires |nn| > 0
  {
    nn[|nn| - 1]
  }

  /** The output layer's row of the delta table holds the error terms. */
  lemma OutputRow(nn: Network, result: seq<real>, expected: seq<real>, j: nat)
    requires |nn| > 0 && |result| >= |LastLayer(nn)| && |expected| >= |LastLayer(nn)|
    requires j < |LastLayer(nn)|
    ensures Deltas(nn, result, expected)[|nn| - 1][j] == ErrorTerm(result[j], expected[j])
  {
    assert DeltaRow(nn, result, expected, |nn| - 1) == OutputDeltas(nn[|nn| - 1], result, expected);
  }

  /** What one `backprop` does to the output layer: each weight of node j
      moves by 0.75 times r_j (1 - r_j) (e_j - r_j), its bias by 0.5 times it. */
  lemma BackpropOutputLayer(nn: Network, result: seq<real>, expected: seq<real>, j: nat)
    requires |nn| > 0 && |result| >= |LastLayer(nn)| && |expected| >= |LastLayer(nn)|
    requires j < |LastLayer(nn)|
    ensures |Backprop(nn, result, expected)| == |nn|
    ensures forall k | 0 <= k < |LastLayer(nn)[j].weights| ::
      LastLayer(Backprop(nn, result, expected))[j].weights[k]
        == LastLayer(nn)[j].weights[k] + 0.75 * ErrorTerm(result[j], expected[j])
    ensures LastLayer(Backprop(nn, result, expected))[j].bias
        == LastLayer(nn)[j].bias + 0.5 * ErrorTerm(result[j], expected[j])
  {
    BackpropIsForwardUpdate(nn, result, expected);
    OutputRow(nn, result, expected, j);
    var r := Update(nn, Deltas(nn, result, expected));
    assert |r| == |nn| && LastLayer(r) == r[|nn| - 1];
  }

  /** What one `backprop` does to a hidden layer i: every weight of every
      node, whichever node it is, moves by 0.75 times one shared amount, the
      layer above's weighted delta sum, and every bias by 0.5 times it. */
  lemma BackpropHiddenLayer(nn: Network, result: seq<real>, expected: seq<real>, i: nat, j: nat)
    requires |nn| > 0 && |result| >= |nn[|nn| - 1]| && |expected| >= |nn[|nn| - 1]|
    requires i < |nn| - 1 && j < |nn[i]|
    ensures forall k | 0 <= k < |nn[i][j].weights| ::
      Backprop(nn, result, expected)[i][j].weights[k]
        == nn[i][j].weights[k] + 0.75 * HiddenDelta(nn[i + 1], DeltaRow(nn, result, expected, i + 1))
    ensures Backprop(nn, result, expected)[i][j].bias
        == nn[i][j].bias + 0.5 * HiddenDelta(nn[i + 1], DeltaRow(nn, result, expected, i + 1))
  {
    BackpropIsForwardUpdate(nn, result, expected);
    assert Deltas(nn, result, expected)[i][j] == HiddenDelta(nn[i + 1], DeltaRow(nn, result, expected, i + 1));
  }

  /** `n` passes of `Epoch` over the same data. */
  function Passes(sig: real -> real, nn: Network, data: seq<Example>, n: nat): (r: Network)
    requires AllFit(nn, data)
    ensures SameShape(r, nn)
    decreases n
  {
    if n == 0 then nn
    else
      var next := Epoch(sig, nn, data);
      SameShapeFits(nn, next, data);
      Passes(sig, next, data, n - 1)
  }

  /** The number of passes `train(nn, data, epochs)` makes. */
  function EpochCount(epochs: int): (n: nat)
    ensures n <= MaxEpochs
    ensures 1 <= epochs <= MaxEpochs ==> n == epochs
    ensures epochs < 1 ==> n == 0
    ensures epochs > MaxEpochs ==> n == MaxEpochs
  {
    if epochs > MaxEpochs then MaxEpochs else if epochs < 1 then 0 else epochs
  }

  /** `train` makes min(epochs, 1000) passes, none for a count below 1. */
  lemma {:induction false} TrainIsPasses(sig: real -> real, nn: Network, data: seq<Example>, epochs: int)
    requires AllFit(nn, data)
    ensures Train(sig, nn, data, epochs) == Passes(sig, nn, data, EpochCount(epochs))
    decreases EpochCount(epochs)
  {
    if EpochCount(epochs) > 0 {
      var e := EpochCount(epochs);
      var next := Epoch(sig, nn, data);
      SameShapeFits(nn, next, data);
      TrainIsPasses(sig, next, data, e - 1);
      assert EpochCount(e - 1) == e - 1;
    }
  }

  /** A count below 1 leaves the network as it is, and any count above 1000
      trains exactly as 1000 does. */
  lemma TrainClamps(sig: real -> real, nn: Network, data: seq<Example>, epochs: int)
    requires AllFit(nn, data)
    ensures epochs < 1 ==> Train(sig, nn, data, epochs) == nn
    ensures epochs > MaxEpochs ==> Train(sig, nn, data, epochs) == Train(sig, nn, data, MaxEpochs)
  {
    TrainIsPasses(sig, nn, data, epochs);
    TrainIsPasses(sig, nn, data, MaxEpochs);
  }

  /** A network `unfunn` builds from a positive input size and positive layer
      sizes is one `predict` accepts, and its output has one value per node
      of the last layer. */
  lemma UnfunnShaped(inputSize: nat, layers: seq<nat>, draw: (nat, nat, nat) -> real, sig: real -> real, x: seq<real>)
    requires |x| == inputSize >= 1
    requires forall i | 0 <= i < |layers| :: layers[i] >= 1
    ensures Shaped(Unfunn(inputSize, layers, draw), inputSize)
    ensures |layers| > 0 ==> |Predict(sig, Unfunn(inputSize, layers, draw), x)| == layers[|layers| - 1]
  {
  }
}

=== FILE: players.dfy ===
/** The move-selection strategies of components/aiPlayers.js. The random draws
    `Math.random()` returns are parameters, and the Monte Carlo player's wall
    clock budget becomes a sequence of rollouts, one per loop iteration, each
    holding the draws its simulated game consumes. */
module Players {
  import opened Common
  import opened Board
  import opened BoardFacts
  import opened Net

  /** `RandomPlayer.getMove`: `moves[Math.floor(r * moves.length)]`, which is
      `undefined` when there are no moves. */
  function RandomMove(g: Game, r: real): (m: Option<nat>)
    requires IsDraw(r)
    ensures m.Some? <==> |AvailableMoves(g)| > 0
    ensures m.Some? ==> m.value in AvailableMoves(g) && m.value < |g.board| && Zero in g.board[m.value]
  {
    var moves := AvailableMoves(g);
    if |moves| == 0 then None else Some(moves[FloorTimes(r, |moves|)])
  }

  /** `_simGame`: random moves until the game is over; the source returns the
      final `winner`. From a game that is not over, the playout ends with the
      winner field holding the last mover's `turn % 2`, never `null` or the
      draw marker, and it needs at most one draw per 0 cell. */
  function SimGame(g: Game, draws: seq<real>): (end: Game)
    requires Rect(g.board) && Live(g)
    requires AllDraws(draws) && |draws| >= ZeroCount(g.board)
    ensures end.gameOver
    ensures g.gameOver ==> end == g
    ensures !g.gameOver ==> end.winner.Slot? && end.winner.index < 2
    decreases ZeroCount(g.board)
  {
    if g.gameOver then g
    else
      var moves := AvailableMoves(g);
      NoMovesIffNoZeros(g);
      var c := moves[FloorTimes(draws[0], |moves|)];
      assert c in moves;
      MoveKeepsLive(g, c);
      MoveZeroCount(g, c);
      SimGame(Move(g, c).game, draws[1..])
  }

  /** An entry of `outcomes`: `[wins, plays]`. */
  datatype Record = Record(wins: int, visits: nat)

  /** An upper confidence bound: `Infinity` or a finite number. */
  datatype Score = Infinite | Finite(v: real)

  /** The strict `>` of the scores. */
  predicate Above(a: Score, b: Score) {
    match a
    case Infinite => b.Finite?
    case Finite(x) => b.Finite? && x > b.v
  }

  /** The UCB of one arm: `Infinity` when it was never played (`!e[1]`),
      otherwise wins / plays + constant / plays. */
  function Ucb(rec: Record, constant: real): (s: Score)
    ensures s == Infinite <==> rec.visits == 0
    ensures s.Finite? ==> s.v * rec.visits as real == rec.wins as real + constant
  {
    if rec.visits == 0 then Infinite
    else Finite(rec.wins as real / rec.visits as real + constant / rec.visits as real)
  }

  /** `ucbs.indexOf(Math.max(...ucbs))`: the first index of a largest score. */
  function FirstBestArm(s: seq<Score>): (i: nat)
    requires |s| > 0
    ensures i < |s|
    ensures forall j | 0 <= j < |s| :: !Above(s[j], s[i])
    ensures forall j | 0 <= j < i :: Above(s[i], s[j])
    decreases |s|
  {
    if |s| == 1 then 0
    else
      var i := FirstBestArm(s[..|s| - 1]);
      assert forall j | 0 <= j < |s| - 1 :: s[..|s| - 1][j] == s[j];
      if Above(s[|s| - 1], s[i]) then |s| - 1 else i
  }

  /** `xs.indexOf(Math.max(...xs))` over numbers. */
  function FirstMaxIndex(s: seq<real>): (i: nat)
    requires |s| > 0
    ensures i < |s|
    ensures forall j | 0 <= j < |s| :: s[j] <= s[i]
    ensures forall j | 0 <= j < i :: s[j] < s[i]
    decreases |s|
  {
    if |s| == 1 then 0
    else
      var i := FirstMaxIndex(s[..|s| - 1]);
      assert forall j | 0 <= j < |s| - 1 :: s[..|s| - 1][j] == s[j];
      if s[|s| - 1] > s[i] then |s| - 1 else i
  }

  /** `xs.indexOf(Math.min(...xs))` over numbers. */
  function FirstMinIndex(s: seq<real>): (i: nat)
    requires |s| > 0
    ensures i < |s|
    ensures forall j | 0 <= j < |s| :: s[i] <= s[j]
    ensures forall j | 0 <= j < i :: s[i] < s[j]
    decreases |s|
  {
    if |s| == 1 then 0
    else
      var i := FirstMinIndex(s[..|s| - 1]);
      assert forall j | 0 <= j < |s| - 1 :: s[..|s| - 1][j] == s[j];
      if s[|s| - 1] < s[i] then |s| - 1 else i
  }

  /** `winner === piece`: the winner field is 0, 1, 0.5 or null, the piece a
      number, and only the same integer matches. */
  predicate Matches(w: Winner, piece: int) {
    w.Slot? && w.index as int == piece
  }

  /** The record update `[outcomes[i][0] + result ? (result === piece ? 1 : -1) : 0,
      outcomes[i][1] + 1]`. `+` binds tighter than `?:`, so the old wins are
      only tested for `old + result != 0` and then replaced by 1, -1 or 0. */
  function RecordUpdate(rec: Record, result: Winner, piece: int): (r: Record)
    ensures r.visits == rec.visits + 1
    ensures -1 <= r.wins <= 1
    ensures r.wins == 0 <==> rec.wins as real + WinnerValue(result) == 0.0
    ensures r.wins == 1 <==> rec.wins as real + WinnerValue(result) != 0.0 && Matches(result, piece)
  {
    var wins := if rec.wins as real + WinnerValue(result) != 0.0 then (if Matches(result, piece) then 1 else -1) else 0;
    Record(wins, rec.visits + 1)
  }

  /** The wins field is overwritten rather than accumulated: two records whose
      sums with the result are both non-zero end with the same wins,
      whatever they held before. */
  lemma RecordOverwrites(a: Record, b: Record, result: Winner, piece: int)
    requires a.wins as real + WinnerValue(result) != 0.0 && b.wins as real + WinnerValue(result) != 0.0
    ensures RecordUpdate(a, result, piece).wins == RecordUpdate(b, result, piece).wins
  {
  }

  /** A loss of player 1 (`result` 0) on an arm whose wins are 0 is recorded
      as 0, not -1, and a player whose piece is -1 never records a win. */
  lemma RecordQuirks(rec: Record, result: Winner, piece: int)
    ensures rec.wins == 0 && result == Slot(0) ==> RecordUpdate(rec, result, piece).wins == 0
    ensures piece == -1 ==> RecordUpdate(rec, result, piece).wins <= 0
  {
  }

  /** A game the search can run on: rectangular, not over, with a 0 cell. */
  predicate Searchable(g: Game) {
    Rect(g.board) && !g.gameOver && ZeroCount(g.board) > 0
  }

  /** Every rollout has enough draws for a playout from `g`. */
  predicate Rollouts(g: Game, rs: seq<seq<real>>) {
    forall k | 0 <= k < |rs| :: AllDraws(rs[k]) && |rs[k]| >= ZeroCount(g.board)
  }

  function Scores(outcomes: seq<Record>, constant: real): (s: seq<Score>)
    ensures |s| == |outcomes| && forall k | 0 <= k < |outcomes| :: s[k] == Ucb(outcomes[k], constant)
  {
    seq(|outcomes|, k requires 0 <= k < |outcomes| => Ucb(outcomes[k], constant))
  }

  /** The index of the arm an iteration plays. */
  function ChosenArm(outcomes: seq<Record>, constant: real): (i: nat)
    requires |outcomes| > 0
    ensures i < |outcomes|
  {
    FirstBestArm(Scores(outcomes, constant))
  }

  /** The move `c` ends the copied game with `winner === piece`. The winner
      field holds the mover's slot `turn % 2` (0 or 1), not its piece (1 or
      -1), so this holds only for piece 1 on an odd turn. */
  predicate WinsAt(g: Game, piece: int, c: nat)
    requires Rect(g.board) && c < |g.board|
  {
    var after := Move(Copy(g), c).game;
    after.gameOver && Matches(after.winner, piece)
  }

  /** The number `players[turn % 2]`: 1 on even turns, -1 on odd ones. */
  function MoverPiece(turn: nat): (p: int)
    ensures p == 1 || p == -1
    ensures p == 1 <==> Piece(turn) == P1
  {
    if turn % 2 == 0 then 1 else -1
  }

  /** The evident intent of `winner === piece`: the move `c` ends the copied
      game and the winner slot is the slot `piece` moves on. */
  predicate WinsOwn(g: Game, piece: int, c: nat)
    requires Rect(g.board) && c < |g.board|
  {
    var after := Move(Copy(g), c).game;
    after.gameOver && after.winner.Slot? && MoverPiece(after.winner.index) == piece
  }

  /** What one iteration of the search loop produces: the move to return at
      once, or the updated records. */
  datatype StepResult = Return(column: nat) | Recorded(outcomes: seq<Record>)

  /** The records after arm `i`'s move is played out on a copy with the
      rollout's draws: that arm's record alone is updated by the record
      formula, with the playout's result 0 or 1. */
  function Rolled(g: Game, piece: int, outcomes: seq<Record>, i: nat, rollout: seq<real>): (o: seq<Record>)
    requires Searchable(g) && |outcomes| == |AvailableMoves(g)| && i < |outcomes|
    requires AllDraws(rollout) && |rollout| >= ZeroCount(g.board)
    ensures |o| == |outcomes|
    ensures forall j | 0 <= j < |outcomes| && j != i :: o[j] == outcomes[j]
    ensures o[i].visits == outcomes[i].visits + 1
    ensures exists w: Winner | w.Slot? && w.index < 2 :: o[i] == RecordUpdate(outcomes[i], w, piece)
  {
    var choice := AvailableMoves(g)[i];
    var copy := Copy(g);
    MoveKeepsLive(copy, choice);
    MoveZeroCount(copy, choice);
    var result := SimGame(Move(copy, choice).game, rollout).winner;
    outcomes[i := RecordUpdate(outcomes[i], result, piece)]
  }

  /** One iteration: score every arm, play the first best on a copy, return it
      if that ends the copy with winner field equal to `piece`, otherwise play
      the copy out with the rollout's draws and update that arm's record
      alone. */
  function MctsStep(g: Game, piece: int, constant: real, outcomes: seq<Record>, rollout: seq<real>): (r: StepResult)
    requires Searchable(g) && |outcomes| == |AvailableMoves(g)|
    requires AllDraws(rollout) && |rollout| >= ZeroCount(g.board)
    ensures |outcomes| > 0
    ensures r.Return? ==> r.column == AvailableMoves(g)[ChosenArm(outcomes, constant)]
    ensures r.Return? ==> r.column < |g.board| && WinsAt(g, piece, r.column)
    ensures r.Return? <==> WinsAt(g, piece, AvailableMoves(g)[ChosenArm(outcomes, constant)])
    ensures r.Recorded? ==> |r.outcomes| == |outcomes|
    ensures r.Recorded? ==> forall j | 0 <= j < |outcomes| && j != ChosenArm(outcomes, constant) :: r.outcomes[j] == outcomes[j]
    ensures r.Recorded? ==>
      r.outcomes[ChosenArm(outcomes, constant)].visits == outcomes[ChosenArm(outcomes, constant)].visits + 1
    ensures r.Recorded? ==> r.outcomes == Rolled(g, piece, outcomes, ChosenArm(outcomes, constant), rollout)
  {
    NoMovesIffNoZeros(g);
    var i := ChosenArm(outcomes, constant);
    var choice := AvailableMoves(g)[i];
    var after := Move(Copy(g), choice).game;
    if after.gameOver && Matches(after.winner, piece) then Return(choice)
    else Recorded(Rolled(g, piece, outcomes, i, rollout))
  }

  /** The iteration as evidently intended: return the chosen move when it
      ends the copy with the slot `piece` moves on. */
  function MctsStepIntended(g: Game, piece: int, constant: real, outcomes: seq<Record>, rollout: seq<real>): (r: StepResult)
    requires Searchable(g) && |outcomes| == |AvailableMoves(g)|
    requires AllDraws(rollout) && |rollout| >= ZeroCount(g.board)
    ensures |outcomes| > 0
    ensures r.Return? <==> WinsOwn(g, piece, AvailableMoves(g)[ChosenArm(outcomes, constant)])
    ensures r.Return? ==> r.column == AvailableMoves(g)[ChosenArm(outcomes, constant)]
    ensures r.Recorded? ==> r.outcomes == Rolled(g, piece, outcomes, ChosenArm(outcomes, constant), rollout)
  {
    NoMovesIffNoZeros(g);
    var i := ChosenArm(outcomes, constant);
    var choice := AvailableMoves(g)[i];
    var after := Move(Copy(g), choice).game;
    if after.gameOver && after.winner.Slot? && MoverPiece(after.winner.index) == piece then Return(choice)
    else Recorded(Rolled(g, piece, outcomes, i, rollout))
  }

  /** The loop `while (time remains)`, one iteration per rollout. A move
      returned early ends the copied game with winner field equal to `piece`. */
  function Explore(g: Game, piece: int, constant: real, outcomes: seq<Record>, rollouts: seq<seq<real>>): (r: StepResult)
    requires Searchable(g) && |outcomes| == |AvailableMoves(g)| && Rollouts(g, rollouts)
    ensures r.Return? ==> r.column < |g.board| && r.column in AvailableMoves(g) && WinsAt(g, piece, r.column)
    ensures r.Recorded? ==> |r.outcomes| == |outcomes|
    ensures |rollouts| > 0 && |outcomes| > 0 && WinsAt(g, piece, AvailableMoves(g)[ChosenArm(outcomes, constant)]) ==>
      r == Return(AvailableMoves(g)[ChosenArm(outcomes, constant)])
    decreases |rollouts|
  {
    if |rollouts| == 0 then Recorded(outcomes)
    else
      match MctsStep(g, piece, constant, outcomes, rollouts[0])
      case Return(c) => Return(c)
      case Recorded(o) => Explore(g, piece, constant, o, rollouts[1..])
  }

  /** The ratio `wins / plays` of an arm that was played. */
  function Ratio(rec: Record): real
    requires rec.visits > 0
  {
    rec.wins as real / rec.visits as real
  }

  /** Arm i has the largest ratio and no earlier arm has as large a one. */
  predicate FirstBestRatio(outcomes: seq<Record>, i: nat)
    requires forall k | 0 <= k < |outcomes| :: outcomes[k].visits > 0
  {
    && i < |outcomes|
    && (forall k | 0 <= k < |outcomes| :: Ratio(outcomes[k]) <= Ratio(outcomes[i]))
    && (forall k | 0 <= k < i :: Ratio(outcomes[k]) < Ratio(outcomes[i]))
  }

  /** The final pick `moves[ratios.indexOf(Math.max(...ratios))]`: an arm
      never played has the ratio NaN, which no `indexOf` finds, so the pick is
      `undefined`; so it is with no moves. Otherwise it is the first move of
      largest ratio. */
  function FinalPick(moves: seq<nat>, outcomes: seq<Record>): (m: Option<nat>)
    requires |outcomes| == |moves|
    ensures m.Some? <==> |moves| > 0 && forall k | 0 <= k < |outcomes| :: outcomes[k].visits > 0
    ensures m.Some? ==> exists i | 0 <= i < |moves| :: m.value == moves[i] && FirstBestRatio(outcomes, i)
  {
    if |moves| == 0 || exists k | 0 <= k < |outcomes| :: outcomes[k].visits == 0 then None
    else
      var ratios := seq(|outcomes|, k requires 0 <= k < |outcomes| => Ratio(outcomes[k]));
      assert forall k | 0 <= k < |outcomes| :: ratios[k] == Ratio(outcomes[k]);
      var i := FirstMaxIndex(ratios);
      assert FirstBestRatio(outcomes, i);
      Some(moves[i])
  }

  function Unplayed(n: nat): (o: seq<Record>)
    ensures |o| == n && forall k | 0 <= k < n :: o[k] == Record(0, 0)
  {
    seq(n, _ => Record(0, 0))
  }

  /** `MCTSPlayer.getMove`: `null` on a finished game; otherwise the search
      loop on copies of the state, then the final pick. */
  function MctsGetMove(g: Game, piece: int, constant: real, rollouts: seq<seq<real>>): (m: Option<nat>)
    requires Rect(g.board) && Live(g) && Rollouts(g, rollouts)
    ensures g.gameOver ==> m == None
    ensures m.Some? ==> m.value in AvailableMoves(g)
  {
    if g.gameOver then None
    else
      var moves := AvailableMoves(g);
      match Explore(g, piece, constant, Unplayed(|moves|), rollouts)
      case Return(c) => Some(c)
      case Recorded(o) => FinalPick(moves, o)
  }

  /** Which entry of a prediction `[p1 wins, p-1 wins, draw]` each network
      player reads: `NNPlayer` minimises `p[piece > 0 ? 0 : 1]`,
      `MinLossNNPlayer` minimises `p[piece > 0 ? 1 : 0]`, `MaxWinNNPlayer`
      maximises `p[piece > 0 ? 0 : 1]`. */
  datatype Rule = LeastOwnWin | LeastLoss | MostWin

  function Entry(rule: Rule, piece: int): (e: nat)
    ensures e < 2
  {
    match rule
    case LeastOwnWin => if piece > 0 then 0 else 1
    case LeastLoss => if piece > 0 then 1 else 0
    case MostWin => if piece > 0 then 0 else 1
  }

  /** A network the players can run: it accepts the flattened board and
      returns at least two numbers. */
  predicate Fitted(nn: Network, g: Game) {
    Rect(g.board) && Shaped(nn, |g.board| * Height(g.board)) && OutWidth(nn, |g.board| * Height(g.board)) >= 2
  }

  /** The number a network player reads for move `c`: the chosen entry of the
      prediction on the flattened board after `c` is made on a copy. */
  function MoveScore(sig: real -> real, nn: Network, g: Game, piece: int, rule: Rule, c: nat): real
    requires Fitted(nn, g) && c < |g.board|
  {
    var after := Move(Copy(g), c).game;
    Predict(sig, nn, Flatten(after.board))[Entry(rule, piece)]
  }

  /** Score `a` is at least as good as `b` under the rule (smaller, or
      larger for `MostWin`). */
  predicate AtLeastAsGood(rule: Rule, a: real, b: real) {
    if rule == MostWin then a >= b else a <= b
  }

  predicate Better(rule: Rule, a: real, b: real) {
    if rule == MostWin then a > b else a < b
  }

  /** `indexOf(Math.min(...s))`, or `Math.max` for `MostWin`: the first
      index whose score is at least as good as every other. */
  function BestIndex(rule: Rule, s: seq<real>): (i: nat)
    requires |s| > 0
    ensures i < |s|
    ensures forall j | 0 <= j < |s| :: AtLeastAsGood(rule, s[i], s[j])
    ensures forall j | 0 <= j < i :: Better(rule, s[i], s[j])
  {
    if rule == MostWin then FirstMaxIndex(s) else FirstMinIndex(s)
  }

  /** Column `c` scores at least as well as every available move and
      strictly better than every available move left of it. */
  predicate Preferred(sig: real -> real, nn: Network, g: Game, piece: int, rule: Rule, c: nat)
    requires Fitted(nn, g) && c < |g.board|
  {
    forall d | d in AvailableMoves(g) ::
      && AtLeastAsGood(rule, MoveScore(sig, nn, g, piece, rule, c), MoveScore(sig, nn, g, piece, rule, d))
      && (d < c ==> Better(rule, MoveScore(sig, nn, g, piece, rule, c), MoveScore(sig, nn, g, piece, rule, d)))
  }

  /** `getMove` of the three network players: the first move, in ascending
      column order, whose score is smallest (largest for `MaxWinNNPlayer`);
      `undefined` when there is no move. */
  function NNGetMove(sig: real -> real, nn: Network, g: Game, piece: int, rule: Rule): (m: Option<nat>)
    requires Fitted(nn, g)
    ensures m.Some? <==> |AvailableMoves(g)| > 0
    ensures m.Some? ==> m.value in AvailableMoves(g) && m.value < |g.board|
    ensures m.Some? ==> Preferred(sig, nn, g, piece, rule, m.value)
  {
    var moves := AvailableMoves(g);
    if |moves| == 0 then None
    else
      var scores := seq(|moves|, k requires 0 <= k < |moves| => MoveScore(sig, nn, g, piece, rule, moves[k]));
      var i := BestIndex(rule, scores);
      PickIsPreferred(sig, nn, g, piece, rule, scores, i);
      Some(moves[i])
  }

  /** The first extreme index of the per-move scores is the preferred column,
      because the moves are in ascending order. */
  lemma PickIsPreferred(sig: real -> real, nn: Network, g: Game, piece: int, rule: Rule, scores: seq<real>, i: nat)
    requires Fitted(nn, g)
    requires |scores| == |AvailableMoves(g)| && i < |scores|
    requires forall k | 0 <= k < |scores| :: scores[k] == MoveScore(sig, nn, g, piece, rule, AvailableMoves(g)[k])
    requires forall j | 0 <= j < |scores| :: AtLeastAsGood(rule, scores[i], scores[j])
    requires forall j | 0 <= j < i :: Better(rule, scores[i], scores[j])
    ensures Preferred(sig, nn, g, piece, rule, AvailableMoves(g)[i])
  {
    var moves := AvailableMoves(g);
    forall d | d in moves
      ensures AtLeastAsGood(rule, scores[i], MoveScore(sig, nn, g, piece, rule, d))
      ensures d < moves[i] ==> Better(rule, scores[i], MoveScore(sig, nn, g, piece, rule, d))
    {
      var j :| 0 <= j < |moves| && moves[j] == d;
      if d < moves[i] {
        AscendingIndex(moves, i, j);
      }
    }
  }

  /** In a strictly ascending sequence a smaller entry sits further left. */
  lemma AscendingIndex(ms: seq<nat>, i: nat, j: nat)
    requires forall p, q | 0 <= p < q < |ms| :: ms[p] < ms[q]
    requires i < |ms| && j < |ms| && ms[j] < ms[i]
    ensures j < i
  {
  }
}

=== FILE: ranking.dfy ===
/** `sortNNs` and the tournament tally of `geneticNN` in main.js. The two
    parallel arrays `layers` and `wins` that `sortNNs` splits and merges in
    step are modelled as one sequence of entries. */
module Ranking {

  /** A topology (or any candidate) together with its win count. */
  datatype Entry<T> = Entry(item: T, wins: real)

  /** Win counts never increase along the sequence. */
  predicate Descending<T>(s: seq<Entry<T>>) {
    forall i, j | 0 <= i < j < |s| :: s[i].wins >= s[j].wins
  }

  /** The merge loop: the head of the left half is taken only when its wins
      are strictly greater, otherwise the head of the right half; the
      leftovers of both halves follow. Nothing is lost or duplicated. */
  function Merge<T>(a: seq<Entry<T>>, b: seq<Entry<T>>): (r: seq<Entry<T>>)
    ensures |r| == |a| + |b|
    ensures multiset(r) == multiset(a) + multiset(b)
    decreases |a| + |b|
  {
    if |a| == 0 then b
    else if |b| == 0 then a
    else if a[0].wins > b[0].wins then
      assert a == [a[0]] + a[1..];
      [a[0]] + Merge(a[1..], b)
    else
      assert b == [b[0]] + b[1..];
      [b[0]] + Merge(a, b[1..])
  }

  /** Every entry of the sequence has at most `w` wins. */
  predicate AllAtMost<T>(s: seq<Entry<T>>, w: real) {
    forall k | 0 <= k < |s| :: s[k].wins <= w
  }

  lemma AtMostByMultiset<T>(r: seq<Entry<T>>, a: seq<Entry<T>>, b: seq<Entry<T>>, w: real)
    requires multiset(r) == multiset(a) + multiset(b)
    requires AllAtMost(a, w) && AllAtMost(b, w)
    ensures AllAtMost(r, w)
  {
    forall k | 0 <= k < |r| ensures r[k].wins <= w {
      assert r[k] in multiset(r);
      if r[k] in multiset(a) {
        var i :| 0 <= i < |a| && a[i] == r[k];
      } else {
        assert r[k] in multiset(b);
        var i :| 0 <= i < |b| && b[i] == r[k];
      }
    }
  }

  /** Merging two descending halves gives a descending sequence. */
  lemma {:induction false} MergeDescending<T>(a: seq<Entry<T>>, b: seq<Entry<T>>)
    requires Descending(a) && Descending(b)
    ensures Descending(Merge(a, b))
    decreases |a| + |b|
  {
    if |a| > 0 && |b| > 0 {
      if a[0].wins > b[0].wins {
        MergeDescending(a[1..], b);
        AtMostByMultiset(Merge(a[1..], b), a[1..], b, a[0].wins);
      } else {
        MergeDescending(a, b[1..]);
        AtMostByMultiset(Merge(a, b[1..]), a, b[1..], b[0].wins);
      }
    }
  }

  /** `sortNNs`: split at `Math.floor(length / 2)`, sort both halves, merge.
      The result is a permutation of the input in descending order of wins. */
  function SortNNs<T>(s: seq<Entry<T>>): (r: seq<Entry<T>>)
    ensures |r| == |s|
    ensures multiset(r) == multiset(s)
    ensures Descending(r)
    decreases |s|
  {
    if |s| < 2 then s
    else
      var m := |s| / 2;
      assert s == s[..m] + s[m..];
      MergeDescending(SortNNs(s[..m]), SortNNs(s[m..]));
      Merge(SortNNs(s[..m]), SortNNs(s[m..]))
  }

  /** On equal wins the right half's entry comes first, so equal entries do
      not keep their input order. */
  lemma TiesTakeRight<T>(x: Entry<T>, y: Entry<T>)
    requires x.wins == y.wins
    ensures SortNNs([x, y]) == [y, x]
  {
    assert [x, y][..1] == [x] && [x, y][1..] == [y];
    assert SortNNs([x]) == [x] && SortNNs([y]) == [y];
    assert [y][1..] == [];
    assert Merge([x], [y]) == [y] + Merge([x], []);
  }

  /** The two tally updates after a game, `if (w > 0) x += 1; if (w < 0)
      o += 1; else { x += 0.5; o += 0.5; }`: the `else` belongs to the second
      `if`, so a winner above 0 gives x 1.5 and o 0.5, a winner below 0 gives
      o 1, and a winner of 0 gives each 0.5. */
  function Tally(x: real, o: real, w: real): (r: (real, real))
    ensures w > 0.0 ==> r == (x + 1.5, o + 0.5)
    ensures w < 0.0 ==> r == (x, o + 1.0)
    ensures w == 0.0 ==> r == (x + 0.5, o + 0.5)
  {
    var x1 := if w > 0.0 then x + 1.0 else x;
    if w < 0.0 then (x1, o + 1.0) else (x1 + 0.5, o + 0.5)
  }

  /** The evident intent: one point per game, to the winner's side, or half
      a point each. */
  function TallyIntended(x: real, o: real, w: real): (r: (real, real))
    ensures r.0 + r.1 == x + o + 1.0
    ensures w > 0.0 ==> r.0 == x + 1.0
    ensures w < 0.0 ==> r.1 == o + 1.0
    ensures r.0 >= x && r.1 >= o
  {
    if w > 0.0 then (x + 1.0, o)
    else if w < 0.0 then (x, o + 1.0)
    else (x + 0.5, o + 0.5)
  }

  /** The tally as written hands out two points, not one, whenever the
      winner is above 0, and then credits the side that did not win that sign. */
  lemma TallyDanglingElse()
    ensures Tally(0.0, 0.0, 1.0) == (1.5, 0.5)
    ensures Tally(0.0, 0.0, 1.0) != TallyIntended(0.0, 0.0, 1.0)
  {
  }
}

=== FILE: search_facts.dfy ===
/** How the Monte Carlo player's loop spends its iterations: unplayed arms
    are tried left to right before any arm is played twice, so with fewer
    iterations than moves the final pick is `undefined` unless the early
    return fired, and with at least as many it always names a move. The
    early return compares the winner slot with the piece, so it never fires
    for the player who is to move; the intended comparison is modelled
    beside it. */
module SearchFacts {
  import opened Common
  import opened Board
  import opened BoardFacts
  import opened Players

  /** The first `k` arms have been played, the others never. */
  predicate Visited(o: seq<Record>, k: nat) {
    && k <= |o|
    && (forall j | 0 <= j < k :: o[j].visits >= 1)
    && (forall j | k <= j < |o| :: o[j].visits == 0)
  }

  function Min(a: nat, b: nat): nat {
    if a <= b then a else b
  }

  /** While some arm is unplayed, the loop plays the leftmost unplayed one. */
  lemma ChosenIsFirstUnplayed(o: seq<Record>, constant: real, k: nat)
    requires Visited(o, k) && k < |o|
    ensures ChosenArm(o, constant) == k
  {
    var s := Scores(o, constant);
    assert s[k] == Infinite;
  }

  /** One iteration that does not return moves the played prefix one arm on
      (or keeps every arm played). */
  lemma StepVisits(g: Game, piece: int, constant: real, o: seq<Record>, rollout: seq<real>, k: nat)
    requires Searchable(g) && |o| == |AvailableMoves(g)|
    requires AllDraws(rollout) && |rollout| >= ZeroCount(g.board)
    requires Visited(o, k)
    ensures MctsStep(g, piece, constant, o, rollout).Recorded? ==>
      Visited(MctsStep(g, piece, constant, o, rollout).outcomes, Min(k + 1, |o|))
  {
    if k < |o| {
      ChosenIsFirstUnplayed(o, constant, k);
    }
  }

  /** After the loop has run through `rs` without returning, the first
      min(k + |rs|, arms) arms have been played and no other. */
  lemma {:induction false} ExploreVisits(g: Game, piece: int, constant: real, o: seq<Record>, rs: seq<seq<real>>, k: nat)
    requires Searchable(g) && |o| == |AvailableMoves(g)| && Rollouts(g, rs)
    requires Visited(o, k)
    ensures Explore(g, piece, constant, o, rs).Recorded? ==>
      Visited(Explore(g, piece, constant, o, rs).outcomes, Min(k + |rs|, |o|))
    decreases |rs|
  {
    if |rs| > 0 {
      StepVisits(g, piece, constant, o, rs[0], k);
      var r := MctsStep(g, piece, constant, o, rs[0]);
      if r.Recorded? {
        assert Rollouts(g, rs[1..]) by {
          forall j | 0 <= j < |rs[1..]| ensures AllDraws(rs[1..][j]) && |rs[1..][j]| >= ZeroCount(g.board) {
            assert rs[1..][j] == rs[j + 1];
          }
        }
        ExploreVisits(g, piece, constant, r.outcomes, rs[1..], Min(k + 1, |o|));
      }
    }
  }

  /** The time budget decides whether `getMove` names a move: with at least
      one iteration per available move it always does; with fewer it names
      one only if that move ends the copied game with winner field equal to
      `piece`, and
      otherwise returns `undefined`. */
  lemma MctsBudget(g: Game, piece: int, constant: real, rollouts: seq<seq<real>>)
    requires Rect(g.board) && Live(g) && Rollouts(g, rollouts) && !g.gameOver
    ensures |rollouts| >= |AvailableMoves(g)| ==> MctsGetMove(g, piece, constant, rollouts).Some?
    ensures |rollouts| < |AvailableMoves(g)| && MctsGetMove(g, piece, constant, rollouts).Some? ==>
      var c := MctsGetMove(g, piece, constant, rollouts).value;
      c < |g.board| && WinsAt(g, piece, c)
  {
    var moves := AvailableMoves(g);
    NoMovesIffNoZeros(g);
    var o := Unplayed(|moves|);
    ExploreVisits(g, piece, constant, o, rollouts, 0);
    var r := Explore(g, piece, constant, o, rollouts);
    if r.Recorded? && |rollouts| < |moves| {
      assert r.outcomes[|rollouts|].visits == 0;
    }
  }

  /** If the leftmost available move ends the copied game with winner field
      equal to `piece`, the first iteration returns it. */
  lemma MctsTakesFirstWin(g: Game, piece: int, constant: real, rollouts: seq<seq<real>>)
    requires Rect(g.board) && Live(g) && Rollouts(g, rollouts) && !g.gameOver
    requires |rollouts| >= 1 && |AvailableMoves(g)| >= 1
    requires WinsAt(g, piece, AvailableMoves(g)[0])
    ensures MctsGetMove(g, piece, constant, rollouts) == Some(AvailableMoves(g)[0])
  {
    var moves := AvailableMoves(g);
    var o := Unplayed(|moves|);
    ChosenIsFirstUnplayed(o, constant, 0);
  }

  /** The winner field of a game that ended on a move is the mover's slot
      `turn % 2`, never -1 and never 1 on an even turn, so the early return
      never fires for a player whose piece is the one being moved: piece 1 on
      even turns, piece -1 on odd ones. */
  lemma ShortCircuitNeverOwnWin(g: Game, c: nat)
    requires Rect(g.board) && c < |g.board|
    ensures g.turn % 2 == 0 ==> !WinsAt(g, 1, c)
    ensures !WinsAt(g, -1, c)
    ensures !WinsAt(g, MoverPiece(g.turn), c)
  {
  }

  /** One column holding 1, 1, 1 and a 0, piece 1 to move on turn 0: the
      move makes four 1s and ends the game with winner field 0, which is the
      mover's own win but not `=== 1`. */
  lemma OwnWinMissed()
    ensures var g := Game([[P1, P1, P1, Zero]], 0, false, Null);
      && Move(Copy(g), 0).ret == Ended(0)
      && WinsOwn(g, 1, 0)
      && !WinsAt(g, 1, 0)
  {
  }

  /** When the chosen move ends the copy and `piece` is the one being moved,
      the iteration as written plays on, while the intended one returns the
      move. */
  lemma StepMissesOwnWin(g: Game, constant: real, outcomes: seq<Record>, rollout: seq<real>)
    requires Searchable(g) && |outcomes| == |AvailableMoves(g)| && |outcomes| > 0
    requires AllDraws(rollout) && |rollout| >= ZeroCount(g.board)
    requires Move(Copy(g), AvailableMoves(g)[ChosenArm(outcomes, constant)]).ret.Ended?
    ensures MctsStep(g, MoverPiece(g.turn), constant, outcomes, rollout).Recorded?
    ensures MctsStepIntended(g, MoverPiece(g.turn), constant, outcomes, rollout)
      == Return(AvailableMoves(g)[ChosenArm(outcomes, constant)])
  {
  }

  /** The record quirk inside the search: a player whose piece is -1 never
      sees a recorded iteration leave its chosen arm with wins above 0. */
  lemma MinusOneNeverRecordsWin(g: Game, constant: real, outcomes: seq<Record>, rollout: seq<real>)
    requires Searchable(g) && |outcomes| == |AvailableMoves(g)|
    requires AllDraws(rollout) && |rollout| >= ZeroCount(g.board)
    ensures var r := MctsStep(g, -1, constant, outcomes, rollout);
      r.Recorded? ==> r.outcomes[ChosenArm(outcomes, constant)].wins <= 0
  {
  }
}

=== FILE: self_play.dfy ===
/** The training data `trainNN` and `developNN` in main.js build from one
    game: after every move the board is flattened column by column and
    recorded, and every recorded state is labelled with the game's final
    `winner` field. */
module SelfPlay {
  import opened Common
  import opened Board
  import opened Net
  import opened Ranking

  /** The label of a state: `[1, 0, 0]` when the winner field is above 0,
      `[0, 1, 0]` when below 0, `[0, 0, 1]` otherwise. */
  function Label(w: real): (l: seq<real>)
    ensures |l| == 3
    ensures forall k | 0 <= k < 3 :: l[k] == 0.0 || l[k] == 1.0
    ensures l[0] + l[1] + l[2] == 1.0
    ensures l[0] == 1.0 <==> w > 0.0
    ensures l[1] == 1.0 <==> w < 0.0
    ensures l[2] == 1.0 <==> w == 0.0
  {
    if w > 0.0 then [1.0, 0.0, 0.0]
    else if w < 0.0 then [0.0, 1.0, 0.0]
    else [0.0, 0.0, 1.0]
  }

  /** The states recorded while the moves `cols` are played from `g`: the
      flattened board after each move. The loop stops at the move that ends
      the game, so `cols` stands for the moves up to and including that one. */
  function Transcript(g: Game, cols: seq<nat>): (states: seq<seq<real>>)
    requires Rect(g.board)
    requires forall k | 0 <= k < |cols| :: cols[k] < |g.board|
    ensures |states| == |cols|
    ensures forall k | 0 <= k < |cols| :: |states[k]| == |g.board| * Height(g.board)
    decreases |cols|
  {
    if |cols| == 0 then []
    else
      var next := Move(g, cols[0]).game;
      [Flatten(next.board)] + Transcript(next, cols[1..])
  }

  /** The k-th recorded state is the flattened board after the first k + 1
      moves. */
  lemma {:induction false} TranscriptAt(g: Game, cols: seq<nat>, k: nat)
    requires Rect(g.board)
    requires forall j | 0 <= j < |cols| :: cols[j] < |g.board|
    requires k < |cols|
    ensures Transcript(g, cols)[k] == Flatten(Play(g, cols[..k + 1]).board)
    decreases k
  {
    var next := Move(g, cols[0]).game;
    assert cols[..k + 1][0] == cols[0];
    if k == 0 {
      assert Play(g, cols[..1]) == Play(next, []) by {
        assert cols[..1][1..] == [];
      }
    } else {
      TranscriptAt(next, cols[1..], k - 1);
      assert cols[..k + 1][1..] == cols[1..][..k];
    }
  }

  /** `states.map((state) => [state, label])` with the final winner field. */
  function TrainingSet(states: seq<seq<real>>, w: real): (data: seq<Example>)
    ensures |data| == |states|
    ensures forall k | 0 <= k < |states| :: data[k].input == states[k] && data[k].target == Label(w)
  {
    seq(|states|, k requires 0 <= k < |states| => Example(states[k], Label(w)))
  }

  /** A game that ends on a move leaves the winner field `turn % 2`, so a win
      by piece 1 (an even turn) is labelled as a draw and a win by piece -1
      as a win of piece 1; no finished game is labelled `[0, 1, 0]`. */
  lemma EndedGameLabel(g: Game, column: int)
    requires Rect(g.board) && 0 <= column < |g.board|
    requires Move(g, column).ret.Ended?
    ensures Piece(g.turn) == P1 ==> Label(WinnerValue(Move(g, column).game.winner)) == [0.0, 0.0, 1.0]
    ensures Piece(g.turn) == P2 ==> Label(WinnerValue(Move(g, column).game.winner)) == [1.0, 0.0, 0.0]
  {
  }

  /** The network `unfunn(42, [25, 3])` that `trainNN` starts from accepts
      every training set recorded on the standard 7 by 6 board. */
  lemma StandardTrainingFits(draw: (nat, nat, nat) -> real, g: Game, cols: seq<nat>, w: real)
    requires Rect(g.board) && |g.board| == StandardWidth && Height(g.board) == StandardHeight
    requires forall k | 0 <= k < |cols| :: cols[k] < |g.board|
    ensures AllFit(Unfunn(StandardWidth * StandardHeight, [25, 3], draw), TrainingSet(Transcript(g, cols), w))
  {
  }

  /** The tournament tally fed the winner field of a game that ended on a
      move: a win by piece 1 counts as a draw, and a win by piece -1 gives
      the piece-1 side 1.5 points and its own side 0.5. */
  lemma EndedGameTally(g: Game, column: int, x: real, o: real)
    requires Rect(g.board) && 0 <= column < |g.board|
    requires Move(g, column).ret.Ended?
    ensures Piece(g.turn) == P1 ==> Tally(x, o, WinnerValue(Move(g, column).game.winner)) == (x + 0.5, o + 0.5)
    ensures Piece(g.turn) == P2 ==> Tally(x, o, WinnerValue(Move(g, column).game.winner)) == (x + 1.5, o + 0.5)
  {
  }
}
